=== FILE: README.md ===
# Tiny transcoder key pipeline, in Dafny

This project models the core of `build_tiny_transcoder.py`. The script recognises Tiny AutoEncoder
(TAESD) encoder and decoder files by the names of their tensors. It finds the prefix under which
each role's tensors live, then builds a "tiny transcoder" state dict, as follows:

- It loads the encoder's tensors under `transe.` and the decoder's under `transd.`.
- It merges the two sets.
- If `transd.0.weight` is present, it shifts the decoder's numbered layers up by one.
- On request, it injects auxiliary constant tensors:
  - a blur sigma under `transx.`;
  - scale and shift factors under `in_emu.` and `out_emu.`.
- On request, it converts every tensor to a target dtype.

The model works on tensor *names*. A tensor is an opaque value of a type parameter `T`.
A state dict is a `Dict<T>`, an ordered dictionary: a key sequence in insertion order plus a map.
Assigning an existing key keeps its place and replaces its tensor, as a Python `dict` does.

Modules:

- `Wrappers` (`wrappers.dfy`): `Option`.
- `Keys` (`keys.dfy`): the string operations the script relies on:
  - `startswith` and `endswith`;
  - `in` on strings;
  - `key[:-n]`;
  - `split('.', 1)`;
  - ASCII `isdecimal`, `int(...)` and `str(...)`;
  - `lower`.

  It also holds the round trips between `int` and `str`.
- `StateDicts` (`state_dict.dfy`): `Dict<T>` and one assignment (`Put`), and a run of assignments (`PutAll`).
  - It holds `{**a, **b}` (`Merge`), and the in-place `StateDict` class whose `Update` is `state_dict.update({k: v})`.
- `Identification` (`identification.dfy`):
  - `is_taesd` as a method against the fingerprint predicate `IsFamilyMember`;
  - `is_taesd_with_role` as a function;
  - `get_tensor_prefix` as a method against `ResolvedPrefix`;
  - `find_taesd_with_role` over candidate files whose headers are given.
- `Tensors` (`tensors.dfy`):
  - `load_tensors`, as the method `LoadTensors` against `Loaded`;
  - `shift_layers`, as the method `ShiftLayers` against `Shifted`.
- `Transcoder` (`transcoder.dfy`):
  - the reserved prefixes, the latent formats and the two in-place layer inserters;
  - the dtype loop;
  - the builder, `BuildTinyTranscoder`, proved equal to the staged specification `Assembled`, with lemmas about the namespaces, the injected layers and what happens to each encoder and decoder tensor.

## Model

| member | source | states |
|---|---|---|
| Keys.StartsWith | build_tiny_transcoder.py:191 | `str.startswith` with one prefix, as also used at line 216. Its uses are stated through `Tensors.LoadedHas` and `Tensors.ShiftKeyOther` |
| Keys.EndsWith | build_tiny_transcoder.py:156 | `str.endswith`. Its use is stated through `Identification.FirstQualifying` and `Identification.ResolvedPrefix` |
| Keys.StartsWithAny | build_tiny_transcoder.py:263 | `str.startswith` with a tuple of prefixes: some prefix of the tuple starts the string. `Identification.StemsReduce` states its use |
| Keys.Contains | build_tiny_transcoder.py:157 | Python's `sub in s`. `Keys.ContainsAt` carries its property |
| Keys.ContainsAt | build_tiny_transcoder.py:157 | `sub in s` holds iff `sub` occurs in `s` at some position |
| Keys.Lower | build_tiny_transcoder.py:297 | `str.lower` on ASCII. `Keys.LowerProperties` carries its properties |
| Keys.LowerProperties | build_tiny_transcoder.py:297 | lower-casing keeps the length and turns each capital 'A'..'Z' into its own small letter 'a'..'z', leaving no capital. It changes no other character, and doing it twice is doing it once |
| Keys.SliceToMinus | build_tiny_transcoder.py:159 | `key[:-len(postfix)]`: it is empty when the postfix is empty (Python's `[:-0]`); otherwise, followed by the last `n` characters, it gives back the key |
| Keys.FirstDot | build_tiny_transcoder.py:220 | the position where `split('.', 1)` cuts: no '.' before it, and a '.' at it unless it is the end |
| Keys.FirstDotAfter | build_tiny_transcoder.py:220 | a dot-free segment followed by "" or by text starting with '.' is cut exactly after the segment |
| Keys.IsDecimal | build_tiny_transcoder.py:221 | `isdecimal` on ASCII: non-empty and all digits. `Keys.NatToString` and `Tensors.LeadingZeroValue` state what it admits |
| Keys.DecimalValue | build_tiny_transcoder.py:225 | `int(s)` of a digit string. Its properties are in `Keys.DecimalValueOfNatToString`, `Keys.NatToStringOfDecimalValue` and `Keys.DecimalValueLowerBound` |
| Keys.IntToString | build_tiny_transcoder.py:227 | `str(i)` of an integer. `Keys.IntToStringSign` carries its properties |
| Keys.IntToStringSign | build_tiny_transcoder.py:225-227 | `str(i)` starts with '-' exactly when `i` is negative; the digits after it are canonical and `int` reads back `abs(i)` |
| Keys.NatToString | build_tiny_transcoder.py:227 | `str(n)` of a natural is a decimal string without leading zeros, starting with '0' only for 0 |
| Keys.DecimalValueOfNatToString | build_tiny_transcoder.py:225-227 | `int(str(n)) == n` |
| Keys.NatToStringOfDecimalValue | build_tiny_transcoder.py:225-227 | `str(int(s)) == s` for a decimal string without leading zeros |
| Keys.DecimalValueLowerBound | build_tiny_transcoder.py:225 | a decimal string not starting with '0' denotes at least 1, and at least 10 when it has two digits or more |
| StateDicts.Put | build_tiny_transcoder.py:193 | one assignment `d[k] = v`. `StateDicts.PutEntry` carries its properties |
| StateDicts.PutEntry | build_tiny_transcoder.py:193 | `d[k] = v` keeps the dict well formed and sets `k` to `v`. Every other entry is untouched. A new key is appended; an existing key keeps its place |
| StateDicts.PutAll | build_tiny_transcoder.py:214-228 | a run of assignments in order. `StateDicts.PutAllValid`, `PutAllHas`, `PutAllLast`, `PutAllUnassigned` and `PutAllFresh` carry its properties |
| StateDicts.PutAllSnoc | build_tiny_transcoder.py:214-228 | one more assignment at the end of a run is one more `Put` |
| StateDicts.PutAllStep | build_tiny_transcoder.py:214-228 | the first `i + 1` assignments are the first `i` followed by assignment `i` |
| StateDicts.PutAllValid | build_tiny_transcoder.py:214-228 | a run of assignments keeps the dict well formed, with the old key order as a prefix |
| StateDicts.PutAllHas | build_tiny_transcoder.py:214-228 | after a run, a key is present iff it was present before or some entry assigned it |
| StateDicts.PutAllLast | build_tiny_transcoder.py:214-228 | a key holds the tensor of the last entry that assigned it |
| StateDicts.PutAllUnassigned | build_tiny_transcoder.py:214-228 | a key no entry assigns keeps its tensor |
| StateDicts.PutAllFresh | build_tiny_transcoder.py:190-193 | distinct new keys are appended in order |
| StateDicts.Merge | build_tiny_transcoder.py:408 | `{**a, **b}`. `StateDicts.MergeEntry`, `MergeValues` and `MergeDisjoint` carry its properties |
| StateDicts.MergeEntry | build_tiny_transcoder.py:408 | in `{**a, **b}` a key is present iff it is in `a` or in `b`. It holds `b`'s tensor when `b` has the key, else `a`'s |
| StateDicts.MergeValues | build_tiny_transcoder.py:408 | `{**a, **b}` is well formed, keeps `a`'s key order in front, and its tensors are `a`'s overridden by `b`'s |
| StateDicts.MergeDisjoint | build_tiny_transcoder.py:408 | when no key is shared, the merged key order is `a`'s keys then `b`'s |
| StateDicts.StateDict.constructor | build_tiny_transcoder.py:408 | the object holds the given dict |
| StateDicts.StateDict.Update | build_tiny_transcoder.py:337 | `state_dict.update({k: v})` changes the object's dict into `Put(old dict, k, v)` |
| Identification.IsFamilyMember | build_tiny_transcoder.py:247-264 | the four fingerprints of `is_taesd`. `Identification.FamilyMemberUnfold` and `FamilyMemberCases` carry its properties |
| Identification.FamilyMemberUnfold | build_tiny_transcoder.py:247-264 | family membership is one of the four fingerprints matching |
| Identification.IsTaesd | build_tiny_transcoder.py:235-268 | the three key-pair tests, then the scan for a stem: true iff the names carry one of the four fingerprints |
| Identification.StemsReduce | build_tiny_transcoder.py:263 | starting with one of "taesd", "taesdxl", "taesd3", "taef1" is the same as starting with "taesd" or "taef1" |
| Identification.FamilyMemberCases | build_tiny_transcoder.py:247-268 | membership written out: one of the three key pairs, or a name starting with "taesd" or "taef1" |
| Identification.HasRoleKey | build_tiny_transcoder.py:282-293 | some key contains the role's one sub-name ("encoder" or "decoder"). `Identification.IsTaesdWithRole` states its use |
| Identification.IsTaesdWithRole | build_tiny_transcoder.py:271-297 | true only for a non-empty family member. A member with a name containing the role word qualifies. When no name contains it, the answer is whether the lower-cased file name contains the role word |
| Identification.Qualifies | build_tiny_transcoder.py:156-158 | the key ends with the postfix and does not contain the excluded word. `Identification.FirstQualifying` and `FirstQualifyingAt` state its use |
| Identification.FirstQualifying | build_tiny_transcoder.py:155-158 | the first key, in order, ending with the postfix and not containing the excluded word; none iff no key qualifies |
| Identification.ResolvedPrefix | build_tiny_transcoder.py:155-162 | the prefix is "" when the postfix is empty or no key qualifies. Otherwise the prefix followed by the postfix is the first qualifying key |
| Identification.GetTensorPrefix | build_tiny_transcoder.py:143-162 | the loop with its `continue` and early return computes `ResolvedPrefix` |
| Identification.FirstQualifyingAt | build_tiny_transcoder.py:155-159 | a qualifying key with no qualifying key before it is the one found |
| Identification.ResolvedPrefixExcludes | build_tiny_transcoder.py:157-159 | a non-empty resolved prefix comes from a key that does not contain the excluded word |
| Identification.Opposite | build_tiny_transcoder.py:312 | the other role: "decoder" for "encoder" and the reverse. `Identification.FindTaesdWithRole` states its use through `RolePrefix` |
| Identification.RolePrefix | build_tiny_transcoder.py:316 | the prefix of a file's ".3.conv.4.bias" key that avoids the opposite role's word. Its properties are those of `Identification.ResolvedPrefix` and `ResolvedPrefixExcludes` |
| Identification.FindTaesdWithRole | build_tiny_transcoder.py:300-319 | None iff no file classifies in the role. Otherwise: the first file that does, paired with the prefix of its ".3.conv.4.bias" key that avoids the opposite role's word |
| Tensors.NormalizePrefix | build_tiny_transcoder.py:181-184 | "" and a prefix already ending with '.' are unchanged; any other prefix ends with '.' afterwards, begins with the original and grows by at most one character |
| Tensors.Renamed | build_tiny_transcoder.py:192 | `target_prefix + key[prefix_len:]`. `Tensors.RenamedInjective`, `RenamedEmpty` and `RenamedLayer` carry its properties |
| Tensors.RenamedInjective | build_tiny_transcoder.py:192 | two keys under the prefix that are renamed alike are the same key |
| Tensors.LoadEntries | build_tiny_transcoder.py:190-193 | the assignments the loading loop makes. `Tensors.LoadEntriesStep`, `LoadEntryOrigin`, `LoadEntryOf` and `LoadEntriesDistinct` carry its properties |
| Tensors.LoadEntriesStep | build_tiny_transcoder.py:190-193 | one more key of the file adds its renamed entry exactly when it starts with the prefix |
| Tensors.LoadEntryOrigin | build_tiny_transcoder.py:190-193 | every loaded entry is a matching key of the file, renamed, with that key's tensor |
| Tensors.LoadEntryOf | build_tiny_transcoder.py:190-193 | every matching key of the file produces a loaded entry under its renamed key |
| Tensors.LoadEntriesDistinct | build_tiny_transcoder.py:190-193 | distinct file keys give distinct renamed keys |
| Tensors.Loaded | build_tiny_transcoder.py:187-195 | the loaded dict is well formed |
| Tensors.LoadedHas | build_tiny_transcoder.py:190-193 | a key is loaded iff it is some key of the file that starts with the normalised prefix, renamed onto the normalised target |
| Tensors.LoadedValue | build_tiny_transcoder.py:192-193 | every matching key's tensor is found under its renamed key |
| Tensors.LoadedOrder | build_tiny_transcoder.py:190-193 | loaded keys keep the file's order |
| Tensors.LoadEntriesKeepAll | build_tiny_transcoder.py:190-193 | with empty prefixes every key is kept, in order |
| Tensors.LoadEverything | build_tiny_transcoder.py:165-195 | loading with both prefixes empty gives back the file unchanged |
| Tensors.RenamedEmpty | build_tiny_transcoder.py:189-192 | with both prefixes empty every key matches and is renamed to itself |
| Tensors.LoadTensors | build_tiny_transcoder.py:165-195 | the loop computes `Loaded`. Its keys are exactly the renamed matching keys, each with the original tensor |
| Tensors.LayerSegment | build_tiny_transcoder.py:220 | `_parts[0]` of `key[len(layer_prefix):].split('.', 1)`. `Tensors.LayerParts` and `Tensors.LayerSplit` carry its properties |
| Tensors.DotSuffix | build_tiny_transcoder.py:226 | the suffix is "" or starts with '.' |
| Tensors.LayerParts | build_tiny_transcoder.py:220-227 | prefix, layer segment and dot suffix put back together give the key |
| Tensors.LayerSplit | build_tiny_transcoder.py:220-226 | prefix + dot-free segment + ("" or '.'-suffix) splits back into exactly that segment and suffix |
| Tensors.ShiftKey | build_tiny_transcoder.py:216-227 | the new name of one key. `Tensors.ShiftKeyLayer`, `ShiftKeyOther`, `ShiftKeyStaysLayer`, `ShiftKeyRoundTrip` and `ShiftKeyInjective` carry its properties |
| Tensors.ShiftKeyLayer | build_tiny_transcoder.py:220-227 | `layer_prefix + d + rest`, with `d` decimal and `rest` "" or starting with '.', becomes `layer_prefix + str(int(d) + offset) + rest` |
| Tensors.ShiftKeyOther | build_tiny_transcoder.py:216-223 | a key outside the prefix, or whose next segment is not decimal, keeps its name |
| Tensors.ShiftKeyStaysLayer | build_tiny_transcoder.py:225-227 | a layer key shifted to a non-negative number is still a layer key, numbered `n + offset` |
| Tensors.ShiftKeyRoundTrip | build_tiny_transcoder.py:225-227 | shifting by `offset` then by `-offset` restores a layer key written without leading zeros |
| Tensors.LeadingZeroValue | build_tiny_transcoder.py:225 | "01" and "1" are both decimal and denote 1 |
| Tensors.ShiftKeyLeadingZeros | build_tiny_transcoder.py:225-227 | "01" and "1" as layer segments shift to the same key |
| Tensors.RenamedLayer | build_tiny_transcoder.py:192 | swapping the prefix keeps the key's layer segment, and with it whether its layer number has leading zeros |
| Tensors.ShiftKeyInjective | build_tiny_transcoder.py:213-228 | with a non-negative offset, two keys whose layer numbers have no leading zeros never shift to the same name |
| Tensors.ShiftEntries | build_tiny_transcoder.py:214 | one shifted entry per key |
| Tensors.ShiftEntriesStep | build_tiny_transcoder.py:214-228 | shifting one more key is one more assignment, of its shifted name and its tensor |
| Tensors.Shifted | build_tiny_transcoder.py:213-230 | the shifted dict is well formed |
| Tensors.ShiftedHas | build_tiny_transcoder.py:213-230 | a key is in the shifted dict iff it is the shifted name of some key |
| Tensors.ShiftedLaterWins | build_tiny_transcoder.py:228 | a shifted name holds the tensor of the last key shifted onto it |
| Tensors.ShiftedKeepsOthers | build_tiny_transcoder.py:216-223 | with a non-negative offset, every key that is not a layer key keeps its name and its tensor |
| Tensors.ShiftedOrder | build_tiny_transcoder.py:213-230 | when no two keys collide, the keys are renamed in place, in the same order |
| Tensors.ShiftedKeepsTensors | build_tiny_transcoder.py:213-230 | when no two keys collide, every tensor is kept under its key's new name |
| Tensors.CollidingKeys | build_tiny_transcoder.py:225-227 | shifted by one, layer "01" and layer "1" both become layer "2" |
| StateDicts.PutTwice | build_tiny_transcoder.py:228 | assigning the same key twice leaves one entry with the second tensor |
| Tensors.ShiftedCollision | build_tiny_transcoder.py:213-230 | layers "01" and "1" shifted by one merge into a single layer-"2" entry holding the later tensor |
| Tensors.ShiftLayers | build_tiny_transcoder.py:198-230 | the loop computes `Shifted`. Its keys are exactly the shifted names of the input keys |
| Transcoder.InsertXBridgeLayer | build_tiny_transcoder.py:324-337 | in place: the dict becomes `Put(old, target_prefix + "gaussian_blur_sigma", sigma)`. The new key holds sigma, other entries are unchanged and the old order stays a prefix |
| Transcoder.WithEmulationLayer | build_tiny_transcoder.py:360-361 | the value `insert_emulation_layer` leaves: the scale factor put, then the shift factor. `Transcoder.EmulationLayerEntries` carries its properties |
| Transcoder.EmulationLayerEntries | build_tiny_transcoder.py:360-361 | the two assignments set distinct keys `scale_factor` and `shift_factor` under the prefix and leave every other entry alone |
| Transcoder.InsertEmulationLayer | build_tiny_transcoder.py:340-361 | in place: the dict gains or overwrites its scale and shift factors, with every other entry unchanged |
| Transcoder.CastTensors | build_tiny_transcoder.py:443-447 | the conversion loop keeps the keys and their order and converts every tensor |
| Transcoder.Truthy | build_tiny_transcoder.py:424 | `if xbridge_gaussian_blur_sigma:`, a sigma that is neither None nor zero. `Transcoder.AssembledInjected` and `AssembledNamespaces` state its use |
| Transcoder.WithBridge | build_tiny_transcoder.py:424-427 | the blur stage. `Transcoder.InjectedEntries` and `AssembledInjected` carry its properties |
| Transcoder.WithEmulation | build_tiny_transcoder.py:430-440 | the emulation stage. `Transcoder.EmulationLayerEntries`, `InjectedEntries` and `AssembledInjected` carry its properties |
| Transcoder.Converted | build_tiny_transcoder.py:443-447 | the dtype stage. `Transcoder.ConvertedEntries` and `CastTensors` carry its properties |
| Transcoder.Assembled | build_tiny_transcoder.py:399-449 | the stages of the builder in order. `Transcoder.AssembledNamespaces`, `AssembledInjected`, `AssembledEncoder`, `AssembledDecoder`, `AssembledDecoderLayer` and `AssembledLayerZero` carry its properties |
| Transcoder.Merged | build_tiny_transcoder.py:399-408 | the merged halves form a well-formed dict |
| Transcoder.Realigned | build_tiny_transcoder.py:420-421 | the realigned dict is well formed |
| Transcoder.LatentFormatsTable | build_tiny_transcoder.py:24-30 | the valid latent formats are exactly "sd", "sdxl", "sd3" and "f1", each listed once |
| Transcoder.ReservedNamespacesDisjoint | build_tiny_transcoder.py:367-372 | the five reserved prefixes each end with '.', and no key lies under two of them |
| Transcoder.HalvesDisjoint | build_tiny_transcoder.py:367-368 | no key lies under both `transe.` and `transd.` |
| Transcoder.InjectedKeysApart | build_tiny_transcoder.py:367-372 | the five injected keys lie outside both halves and are pairwise distinct |
| Transcoder.LoadedUnder | build_tiny_transcoder.py:192 | every loaded key starts with the normalised target prefix |
| Transcoder.MergedHalves | build_tiny_transcoder.py:399-408 | encoder keys are all under `transe.` and decoder keys all under `transd.`. The merge is the plain concatenation of orders and union of tensors |
| Tensors.ShiftKeyKeepsPrefix | build_tiny_transcoder.py:227 | re-indexing keeps a key under the layer prefix |
| Transcoder.RealignedHalves | build_tiny_transcoder.py:420-421 | realignment keeps every key in one of the halves |
| Transcoder.ConvertedEntries | build_tiny_transcoder.py:443-447 | the conversion keeps the keys and order; each tensor is converted |
| Transcoder.InjectedEntries | build_tiny_transcoder.py:424-440 | the bridge and emulation stages add exactly the keys requested, with their constants, and keep every other entry |
| Transcoder.ReservedKey | build_tiny_transcoder.py:367-372 | a half's key or an injected key lies under one of the five reserved prefixes |
| Transcoder.AssembledNamespaces | build_tiny_transcoder.py:374-449 | every key of the transcoder is a key of one of the two halves, the blur key when the sigma is truthy, or one of the four emulation keys when emulation is asked for. So there is no `transx.` key without a truthy sigma and no emulation key without emulation, and every key lies under `transe.`, `transd.`, `transx.`, `in_emu.` or `out_emu.` |
| Transcoder.AssembledInjected | build_tiny_transcoder.py:424-440 | the blur key is present iff the sigma is truthy, and the four emulation keys iff emulation is asked for. Each holds its (converted) constant |
| Transcoder.RenamedToMisaligned | build_tiny_transcoder.py:420 | a decoder key lands on `transd.0.weight` iff it is the decoder prefix followed by "0.weight" |
| Transcoder.RealignmentTrigger | build_tiny_transcoder.py:399-421 | realignment happens iff the decoder file holds `<decoder prefix>0.weight` |
| Transcoder.SurvivesInjection | build_tiny_transcoder.py:424-447 | a key of either half survives the injections, with its tensor converted |
| Transcoder.AssembledEncoder | build_tiny_transcoder.py:399-449 | every encoder tensor under the encoder prefix reaches the transcoder under `transe.`, converted |
| Transcoder.AssembledDecoder | build_tiny_transcoder.py:403-449 | Without realignment, every decoder tensor under the decoder prefix reaches `transd.`, converted. With realignment, its shifted name is present, and a non-layer name keeps its tensor |
| Transcoder.LoadedCanonical | build_tiny_transcoder.py:189-193 | a decoder file whose layer numbers have no leading zeros loads into `transd.` keys without leading zeros |
| Transcoder.ShiftedApart | build_tiny_transcoder.py:420-421 | a key other than a renamed decoder key is never shifted onto that key's new name, when both layer numbers have no leading zeros |
| Transcoder.MergedDecoderValue | build_tiny_transcoder.py:403-408 | a decoder tensor under the decoder prefix is in the merged dict under `transd.`, unchanged |
| Transcoder.NoOtherLandsOn | build_tiny_transcoder.py:420-421 | when the decoder's layer numbers have no leading zeros, no other merged key is shifted onto a decoder key's new name |
| Transcoder.RealignedDecoderLayer | build_tiny_transcoder.py:420-421 | with realignment, every decoder tensor under the decoder prefix is found, unchanged, under its shifted name (its layer number plus one). This needs the decoder's layer numbers to have no leading zeros |
| Transcoder.AssembledDecoderLayer | build_tiny_transcoder.py:420-449 | with realignment, every decoder tensor under the decoder prefix reaches the transcoder, converted, under its shifted name (its layer number plus one). This needs the decoder's layer numbers to have no leading zeros |
| Transcoder.LayerZeroParts | build_tiny_transcoder.py:420 | `transd.0.weight` is a layer key of `transd.`, with layer segment "0" (value 0) and dot suffix ".weight" |
| Transcoder.ShiftNeverLayerZero | build_tiny_transcoder.py:420-421 | shifting `transd.` layers by one never produces `transd.0.weight` |
| Transcoder.ShiftLayerZero | build_tiny_transcoder.py:420-421 | shifting by one renames `transd.0.weight` to `transd.1.weight` |
| Transcoder.RealignedDropsLayerZero | build_tiny_transcoder.py:420-421 | after realignment `transd.0.weight` is gone; when it was present, `transd.1.weight` is present |
| Transcoder.AssembledLayerZero | build_tiny_transcoder.py:399-449 | the transcoder never holds `transd.0.weight`. It holds `transd.1.weight` whenever the decoder file holds `<decoder prefix>0.weight` |
| Transcoder.BuildTinyTranscoder | build_tiny_transcoder.py:374-449 | None iff a latent format is not one of "sd", "sdxl", "sd3", "f1". Otherwise the staged `Assembled` result, which is well formed, lies in the reserved namespaces, and carries the blur key iff the sigma is truthy and the emulation keys (both scale and both shift keys) iff requested. It never holds `transd.0.weight`, and holds `transd.1.weight` when the decoder file has `<decoder prefix>0.weight` |

## Left out

- Reading files:
  - `get_safetensors_header`, `safe_open`, `get_tensor` and `save_file` are I/O.
  - A file is modelled as a `Dict<T>` whose key order is the order `f.keys()` yields.
  - A header is the sequence of its keys (the tensor names, and `__metadata__` when the file has one); an empty sequence stands for a header that could not be read.
- Tensor values:
  - The floating-point constants of the latent formats and `np.array(value, dtype)` are left out.
  - The caller supplies a function `scalar` that turns a `Constant` (blur sigma, or a format's scale or shift factor) into a tensor.
  - The inserting methods receive the tensor already built.
- dtype conversion:
  - `astype` is an opaque function `cast`, applied when one is given.
  - The `isinstance(tensor, np.ndarray)` test is left out: every entry of a loaded state dict is an array.
- Blur sigma: truthiness is `Some` and non-zero; a NaN sigma is not modelled.
- Tensors.ShiftKey: Python limits `int(str)` and `str(int)` to 4300 digits by default (`sys.set_int_max_str_digits`). A layer segment longer than that makes `int(_parts[0])` raise `ValueError` in `shift_layers`, and a result that long makes the f-string raise too; the exception leaves `build_tiny_transcoder`. The model has no digit limit: it never raises and renames every decimal layer segment.
- Character classes: `isdecimal` and `lower` are modelled on ASCII only. Unicode digits and case mappings are left out.
- `os.path.basename` and `splitext` are left out. `IsTaesdWithRole` receives the base file name without its extension.
- Not modelled: `main`, argument parsing, console colours and messages, `get_file_name_tag`, `find_unique_path`. They are command-line plumbing around the core.
- The role is the datatype `Role`, so the `assert role in ("encoder", "decoder")` checks cannot fail.
- Identification.GetTensorPrefix:
  - It follows the code, which returns "" both for "no key found" and for "empty prefix", as `get_tensor_prefix` does.
  - An `Option` result would keep "no key found" apart from "empty prefix"; the model keeps the code's `""` for both.
  - `ResolvedPrefixExcludes` and `FirstQualifying` keep the two cases apart in the proofs.
- Transcoder.AssembledDecoderLayer: it assumes no layer number in the decoder file has a leading zero. Without that, two layers such as "01" and "1" land on one name and the later tensor wins (`Tensors.ShiftedCollision`); the lemma says nothing about that case.

=== FILE: identification.dfy ===
/**
 * Identification of Tiny AutoEncoder (TAESD) files from their tensor names:
 * the family fingerprints, the encoder/decoder role, the prefix under which
 * a role's tensors live, and the search for the first file in a given role.
 * A file's header is modelled as the sequence of its tensor names; a header
 * that could not be read is the empty sequence.
 */
module Identification {
  import opened Keys
  import opened Wrappers

  datatype Role = Encoder | Decoder

  function RoleWord(role: Role): string {
    match role
    case Encoder => "encoder"
    case Decoder => "decoder"
  }

  function Opposite(role: Role): Role {
    match role
    case Encoder => Decoder
    case Decoder => Encoder
  }

  //----------------------------- fingerprints ------------------------------//

  /** A structural fingerprint of the family: two tensor names present together, or a name stem. */
  datatype Fingerprint = KeyPair(first: string, second: string) | NameStem(stems: seq<string>)

  const TaesdStems: seq<string> := ["taesd", "taesdxl", "taesd3", "taef1"]

  /** The fingerprints in the order they are tried. */
  const TaesdFingerprints: seq<Fingerprint> := [
    KeyPair("3.conv.4.bias", "8.conv.0.weight"),
    KeyPair("decoder.layers.3.conv.4.bias", "decoder.layers.8.conv.0.weight"),
    KeyPair("encoder.layers.4.conv.4.bias", "encoder.layers.8.conv.0.weight"),
    NameStem(TaesdStems)
  ]

  predicate Matches(fp: Fingerprint, keys: seq<string>) {
    match fp
    case KeyPair(a, b) => a in keys && b in keys
    case NameStem(stems) => exists k :: k in keys && StartsWithAny(k, stems)
  }

  /** The tensor names carry one of the family fingerprints. */
  predicate IsFamilyMember(keys: seq<string>) {
    exists i :: 0 <= i < |TaesdFingerprints| && Matches(TaesdFingerprints[i], keys)
  }

  /** Membership is one of the four fingerprints matching. */
  lemma FamilyMemberUnfold(keys: seq<string>)
    ensures IsFamilyMember(keys) <==>
      Matches(TaesdFingerprints[0], keys) || Matches(TaesdFingerprints[1], keys) ||
      Matches(TaesdFingerprints[2], keys) || Matches(TaesdFingerprints[3], keys)
  {
    assert |TaesdFingerprints| == 4;
  }

  /** `is_taesd`: the key-pair tests in order, then a scan for a name stem. */
  method IsTaesd(keys: seq<string>) returns (b: bool)
    ensures b <==> IsFamilyMember(keys)
  {
    FamilyMemberUnfold(keys);
    assert Matches(TaesdFingerprints[3], keys) <==> exists k :: k in keys && StartsWithAny(k, TaesdStems);
    if "3.conv.4.bias" in keys && "8.conv.0.weight" in keys {
      assert Matches(TaesdFingerprints[0], keys);
      return true;
    }
    if "decoder.layers.3.conv.4.bias" in keys && "decoder.layers.8.conv.0.weight" in keys {
      assert Matches(TaesdFingerprints[1], keys);
      return true;
    }
    if "encoder.layers.4.conv.4.bias" in keys && "encoder.layers.8.conv.0.weight" in keys {
      assert Matches(TaesdFingerprints[2], keys);
      return true;
    }
    for i := 0 to |keys|
      invariant !Matches(TaesdFingerprints[3], keys[..i])
    {
      if StartsWithAny(keys[i], TaesdStems) {
        assert Matches(TaesdFingerprints[3], keys);
        return true;
      }
      assert keys[..i + 1] == keys[..i] + [keys[i]];
    }
    assert keys[..|keys|] == keys;
    return false;
  }

  /** The stem list is redundant: "taesd" already covers "taesdxl" and "taesd3". */
  lemma StemsReduce(k: string)
    ensures StartsWithAny(k, TaesdStems) <==> StartsWith(k, "taesd") || StartsWith(k, "taef1")
  {
    if StartsWith(k, "taesdxl") {
      assert k[..5] == k[..7][..5];
    }
    if StartsWith(k, "taesd3") {
      assert k[..5] == k[..6][..5];
    }
    if StartsWith(k, "taesd") {
      assert StartsWith(k, TaesdStems[0]);
    }
    if StartsWith(k, "taef1") {
      assert StartsWith(k, TaesdStems[3]);
    }
  }

  /** The three key pairs and the stems, written out; the stems reduce to two. */
  lemma FamilyMemberCases(keys: seq<string>)
    ensures IsFamilyMember(keys) <==>
      ("3.conv.4.bias" in keys && "8.conv.0.weight" in keys) ||
      ("decoder.layers.3.conv.4.bias" in keys && "decoder.layers.8.conv.0.weight" in keys) ||
      ("encoder.layers.4.conv.4.bias" in keys && "encoder.layers.8.conv.0.weight" in keys) ||
      (exists k :: k in keys && (StartsWith(k, "taesd") || StartsWith(k, "taef1")))
  {
    FamilyMemberUnfold(keys);
    assert Matches(TaesdFingerprints[3], keys) <==> exists k :: k in keys && StartsWithAny(k, TaesdStems);
    forall k | k in keys
      ensures StartsWithAny(k, TaesdStems) <==> StartsWith(k, "taesd") || StartsWith(k, "taef1")
    {
      StemsReduce(k);
    }
  }

  //--------------------------------- role ----------------------------------//

  /** Some tensor name contains the role word. */
  predicate HasRoleKey(keys: seq<string>, role: Role) {
    exists k :: k in keys && Contains(k, RoleWord(role))
  }

  /**
   * `is_taesd_with_role`: only a non-empty family member qualifies; tensor names
   * decide first, and only when no name mentions the role does the lower-cased
   * file name (base name without extension) decide.
   */
  function IsTaesdWithRole(fileName: string, keys: seq<string>, role: Role): (b: bool)
    ensures b ==> keys != [] && IsFamilyMember(keys)
    ensures IsFamilyMember(keys) && HasRoleKey(keys, role) ==> b
    ensures !HasRoleKey(keys, role) ==> (b <==> IsFamilyMember(keys) && Contains(Lower(fileName), RoleWord(role)))
  {
    if keys == [] || !IsFamilyMember(keys) then false
    else if HasRoleKey(keys, role) then true
    else Contains(Lower(fileName), RoleWord(role))
  }

  //-------------------------------- prefix ---------------------------------//

  /** The key ends with the anchor suffix and does not contain the excluded substring. */
  predicate Qualifies(key: string, postfix: string, notContaining: Option<string>) {
    EndsWith(key, postfix) && !(notContaining.Some? && Contains(key, notContaining.value))
  }

  /** The index of the first qualifying key, in iteration order. */
  function FirstQualifying(keys: seq<string>, postfix: string, notContaining: Option<string>): (r: Option<nat>)
    ensures r.None? ==> forall j :: 0 <= j < |keys| ==> !Qualifies(keys[j], postfix, notContaining)
    ensures r.Some? ==> r.value < |keys| && Qualifies(keys[r.value], postfix, notContaining)
    ensures r.Some? ==> forall j :: 0 <= j < r.value ==> !Qualifies(keys[j], postfix, notContaining)
  {
    if keys == [] then None
    else if Qualifies(keys[0], postfix, notContaining) then Some(0)
    else match FirstQualifying(keys[1..], postfix, notContaining)
      case None => None
      case Some(j) => Some(j + 1)
  }

  /**
   * The prefix resolved from the first qualifying key: the key with the
   * suffix cut off as `key[:-len(postfix)]` does, or "" when no key qualifies.
   */
  function ResolvedPrefix(keys: seq<string>, postfix: string, notContaining: Option<string>): (r: string)
    ensures |postfix| == 0 ==> r == ""
    ensures (forall j :: 0 <= j < |keys| ==> !Qualifies(keys[j], postfix, notContaining)) ==> r == ""
    ensures |postfix| > 0 && FirstQualifying(keys, postfix, notContaining).Some? ==>
      r + postfix == keys[FirstQualifying(keys, postfix, notContaining).value]
  {
    match FirstQualifying(keys, postfix, notContaining)
    case None => ""
    case Some(i) => SliceToMinus(keys[i], |postfix|)
  }

  /** `get_tensor_prefix`: scan the keys in order and return at the first qualifying one. */
  method GetTensorPrefix(keys: seq<string>, postfix: string, notContaining: Option<string>) returns (prefix: string)
    ensures prefix == ResolvedPrefix(keys, postfix, notContaining)
  {
    for i := 0 to |keys|
      invariant forall j :: 0 <= j < i ==> !Qualifies(keys[j], postfix, notContaining)
    {
      var key := keys[i];
      if EndsWith(key, postfix) {
        if notContaining.Some? && Contains(key, notContaining.value) {
          continue;
        }
        FirstQualifyingAt(keys, postfix, notContaining, i);
        return SliceToMinus(key, |postfix|);
      }
    }
    return "";
  }

  /** The first qualifying index is the one every earlier key fails. */
  lemma FirstQualifyingAt(keys: seq<string>, postfix: string, notContaining: Option<string>, i: nat)
    requires i < |keys| && Qualifies(keys[i], postfix, notContaining)
    requires forall j :: 0 <= j < i ==> !Qualifies(keys[j], postfix, notContaining)
    ensures FirstQualifying(keys, postfix, notContaining) == Some(i)
  {
  }

  /** The prefix never comes from a key that contains the excluded substring. */
  lemma ResolvedPrefixExcludes(keys: seq<string>, postfix: string, excluded: string)
    requires |postfix| > 0
    ensures var r := ResolvedPrefix(keys, postfix, Some(excluded));
      r != "" ==> exists k :: k in keys && k == r + postfix && !Contains(k, excluded)
  {
    var r := ResolvedPrefix(keys, postfix, Some(excluded));
    if r != "" {
      var i := FirstQualifying(keys, postfix, Some(excluded)).value;
      assert keys[i] == r + postfix;
    }
  }

  //--------------------------------- search --------------------------------//

  /** A candidate file: its path, its base name without extension, and its header's tensor names. */
  datatype CandidateFile = CandidateFile(path: string, fileName: string, header: seq<string>)

  /** The suffix that anchors prefix resolution. */
  const AnchorSuffix: string := ".3.conv.4.bias"

  predicate Classifies(file: CandidateFile, role: Role) {
    IsTaesdWithRole(file.fileName, file.header, role)
  }

  /** The prefix of `role`'s tensors in a file, skipping names of the opposite role. */
  function RolePrefix(file: CandidateFile, role: Role): string {
    ResolvedPrefix(file.header, AnchorSuffix, Some(RoleWord(Opposite(role))))
  }

  /** `find_taesd_with_role`: the first file that classifies in the role, with its prefix. */
  method FindTaesdWithRole(files: seq<CandidateFile>, role: Role) returns (found: Option<(string, string)>)
    ensures found.None? <==> forall i :: 0 <= i < |files| ==> !Classifies(files[i], role)
    ensures found.Some? ==>
      (exists i :: 0 <= i < |files| && Classifies(files[i], role) &&
         (forall j :: 0 <= j < i ==> !Classifies(files[j], role)) &&
         found.value == (files[i].path, RolePrefix(files[i], role)))
  {
    var opposite := RoleWord(Opposite(role));
    for i := 0 to |files|
      invariant forall j :: 0 <= j < i ==> !Classifies(files[j], role)
    {
      var file := files[i];
      if IsTaesdWithRole(file.fileName, file.header, role) {
        var prefix := GetTensorPrefix(file.header, AnchorSuffix, Some(opposite));
        return Some((file.path, prefix));
      }
    }
    return None;
  }
}

=== FILE: keys.dfy ===
/**
 * String logic over dot-separated tensor names: the `str` methods the
 * pipeline relies on (`startswith`, `endswith`, `in`, `lower`, `split('.', 1)`,
 * `isdecimal`, `int` and `str` on decimal segments), restricted to ASCII.
 */
module Keys {

  predicate StartsWith(s: string, prefix: string) {
    |prefix| <= |s| && s[..|prefix|] == prefix
  }

  predicate EndsWith(s: string, suffix: string) {
    |suffix| <= |s| && s[|s| - |suffix|..] == suffix
  }

  /** `s.startswith(tuple_of_prefixes)` */
  predicate StartsWithAny(s: string, prefixes: seq<string>) {
    exists i :: 0 <= i < |prefixes| && StartsWith(s, prefixes[i])
  }

  /** `sub in s`; the empty string is contained in every string. */
  predicate Contains(s: string, sub: string)
    decreases |s|
  {
    StartsWith(s, sub) || (|s| > 0 && Contains(s[1..], sub))
  }

  /** `sub` occurs in `s` starting at position `i`. */
  predicate OccursAt(s: string, sub: string, i: nat) {
    i + |sub| <= |s| && s[i..i + |sub|] == sub
  }

  /** `sub in s` holds iff `sub` occurs in `s` at some position. */
  lemma {:induction false} ContainsAt(s: string, sub: string)
    ensures Contains(s, sub) <==> exists i: nat :: OccursAt(s, sub, i)
    decreases |s|
  {
    if StartsWith(s, sub) {
      assert OccursAt(s, sub, 0);
    } else if |s| > 0 {
      ContainsAt(s[1..], sub);
      if Contains(s[1..], sub) {
        var i: nat :| OccursAt(s[1..], sub, i);
        assert s[1..][i..i + |sub|] == s[i + 1..i + 1 + |sub|];
        assert OccursAt(s, sub, i + 1);
      }
      if exists i: nat :: OccursAt(s, sub, i) {
        var i: nat :| OccursAt(s, sub, i);
        assert s[1..][i - 1..i - 1 + |sub|] == s[i..i + |sub|];
        assert OccursAt(s[1..], sub, i - 1);
      }
    }
  }

  /** `s[:-n]` in Python: everything but the last `n` characters, and the empty string when `n` is 0. */
  function SliceToMinus(s: string, n: nat): (r: string)
    requires n <= |s|
    ensures n == 0 ==> r == []
    ensures n > 0 ==> r + s[|s| - n..] == s
  {
    if n == 0 then [] else s[..|s| - n]
  }

  function LowerChar(c: char): char {
    if 'A' <= c <= 'Z' then (c as int - 'A' as int + 'a' as int) as char else c
  }

  /** `s.lower()` on ASCII letters. */
  function Lower(s: string): string {
    seq(|s|, i requires 0 <= i < |s| => LowerChar(s[i]))
  }

  /** `lower` keeps the length, turns each ASCII capital into its own small letter, touches nothing else and is idempotent. */
  lemma LowerProperties(s: string)
    ensures |Lower(s)| == |s|
    ensures forall i :: 0 <= i < |s| && 'A' <= s[i] <= 'Z' ==> Lower(s)[i] as int == s[i] as int - 'A' as int + 'a' as int
    ensures forall i :: 0 <= i < |s| ==> !('A' <= Lower(s)[i] <= 'Z')
    ensures forall i :: 0 <= i < |s| && !('A' <= s[i] <= 'Z') ==> Lower(s)[i] == s[i]
    ensures Lower(Lower(s)) == Lower(s)
  {
  }

  /** Index of the first '.' in `s`, or `|s|` when there is none. */
  function FirstDot(s: string): (r: nat)
    ensures r <= |s|
    ensures forall i :: 0 <= i < r ==> s[i] != '.'
    ensures r < |s| ==> s[r] == '.'
  {
    if s == [] || s[0] == '.' then 0 else 1 + FirstDot(s[1..])
  }

  /** The first dot of `a + b` is where `b` starts, when `a` has no dot and `b` is empty or starts with one. */
  lemma {:induction false} FirstDotAfter(a: string, b: string)
    requires forall i :: 0 <= i < |a| ==> a[i] != '.'
    requires b == [] || b[0] == '.'
    ensures FirstDot(a + b) == |a|
  {
    if a == [] {
      assert a + b == b;
    } else {
      assert (a + b)[1..] == a[1..] + b;
      FirstDotAfter(a[1..], b);
    }
  }

  predicate IsDigit(c: char) {
    '0' <= c <= '9'
  }

  predicate AllDigits(s: string) {
    forall i :: 0 <= i < |s| ==> IsDigit(s[i])
  }

  /** `s.isdecimal()` for ASCII: non-empty and made only of digits. */
  predicate IsDecimal(s: string) {
    |s| > 0 && AllDigits(s)
  }

  /** A decimal string without leading zeros, as `str` prints a natural number. */
  predicate IsCanonical(s: string) {
    IsDecimal(s) && (s[0] == '0' ==> |s| == 1)
  }

  function DigitValue(c: char): (d: nat)
    requires IsDigit(c)
    ensures d < 10
  {
    c as int - '0' as int
  }

  function DigitChar(d: nat): (c: char)
    requires d < 10
    ensures IsDigit(c) && DigitValue(c) == d
  {
    (d + '0' as int) as char
  }

  /** `int(s)` for a string of digits. */
  function DecimalValue(s: string): nat
    requires AllDigits(s)
    decreases |s|
  {
    if s == [] then 0 else 10 * DecimalValue(s[..|s| - 1]) + DigitValue(s[|s| - 1])
  }

  /** `str(n)` for a natural number. */
  function NatToString(n: nat): (r: string)
    ensures IsCanonical(r)
    ensures r[0] == '0' <==> n == 0
    decreases n
  {
    if n < 10 then [DigitChar(n)] else NatToString(n / 10) + [DigitChar(n % 10)]
  }

  /** `str(i)` for any integer. */
  function IntToString(i: int): string {
    if i < 0 then "-" + NatToString(-i) else NatToString(i)
  }

  /** `str(i)` starts with '-' exactly when `i` is negative; the digits after it are canonical and `int` reads back `abs(i)`. */
  lemma IntToStringSign(i: int)
    ensures |IntToString(i)| > 0
    ensures IntToString(i)[0] == '-' <==> i < 0
    ensures i >= 0 ==> IsCanonical(IntToString(i)) && DecimalValue(IntToString(i)) == i
    ensures i < 0 ==> IsCanonical(IntToString(i)[1..]) && DecimalValue(IntToString(i)[1..]) == -i
  {
    if i < 0 {
      var digits := NatToString(-i);
      assert IntToString(i) == "-" + digits;
      assert IntToString(i)[1..] == digits;
      DecimalValueOfNatToString(-i);
    } else {
      var digits := NatToString(i);
      assert IntToString(i) == digits && digits[0] != '-';
      DecimalValueOfNatToString(i);
    }
  }

  /** `int(str(n)) == n` */
  lemma {:induction false} DecimalValueOfNatToString(n: nat)
    ensures DecimalValue(NatToString(n)) == n
    decreases n
  {
    if n >= 10 {
      var s := NatToString(n);
      var front := NatToString(n / 10);
      assert s[..|s| - 1] == front;
      DecimalValueOfNatToString(n / 10);
    }
  }

  /** A decimal string that does not start with '0' denotes a positive number, one of two digits or more at least 10. */
  lemma {:induction false} DecimalValueLowerBound(s: string)
    requires IsDecimal(s) && s[0] != '0'
    ensures DecimalValue(s) >= 1
    ensures |s| >= 2 ==> DecimalValue(s) >= 10
  {
    if |s| >= 2 {
      var front := s[..|s| - 1];
      assert front[0] == s[0];
      DecimalValueLowerBound(front);
    } else {
      assert s[..0] == [];
    }
  }

  /** `str(int(s)) == s` for a canonical decimal string. */
  lemma {:induction false} NatToStringOfDecimalValue(s: string)
    requires IsCanonical(s)
    ensures NatToString(DecimalValue(s)) == s
    decreases |s|
  {
    var n := DecimalValue(s);
    var front := s[..|s| - 1];
    if |s| == 1 {
      assert front == [];
      assert DigitChar(DigitValue(s[0])) == s[0];
    } else {
      DecimalValueLowerBound(s);
      assert front[0] == s[0];
      NatToStringOfDecimalValue(front);
      assert n / 10 == DecimalValue(front) && n % 10 == DigitValue(s[|s| - 1]);
      assert DigitChar(DigitValue(s[|s| - 1])) == s[|s| - 1];
      assert s == front + [s[|s| - 1]];
    }
  }
}

=== FILE: state_dict.dfy ===
/**
 * A state dict: tensor names mapped to tensors, remembering insertion order
 * as a Python `dict` does. Writing a key that is already present replaces its
 * tensor and keeps its position; writing a new key appends it. Tensors are an
 * opaque type parameter `T`.
 */
module StateDicts {

  datatype Dict<T> = Dict(keys: seq<string>, vals: map<string, T>)

  ghost predicate Distinct(s: seq<string>) {
    forall i, j :: 0 <= i < j < |s| ==> s[i] != s[j]
  }

  /** The key sequence lists every key of the map exactly once. */
  ghost predicate Valid<T>(d: Dict<T>) {
    Distinct(d.keys) && forall k :: k in d.vals <==> k in d.keys
  }

  function Empty<T>(): Dict<T> {
    Dict([], map[])
  }

  /** `d[k] = v` on a copy of `d`. */
  function Put<T>(d: Dict<T>, k: string, v: T): Dict<T> {
    if k in d.vals then Dict(d.keys, d.vals[k := v]) else Dict(d.keys + [k], d.vals[k := v])
  }

  /** Assigning one entry keeps the dict well formed, sets `k` to `v`, leaves every other entry alone and keeps the old order as a prefix. */
  lemma PutEntry<T>(d: Dict<T>, k: string, v: T)
    requires Valid(d)
    ensures Valid(Put(d, k, v))
    ensures forall x :: x in Put(d, k, v).vals <==> x in d.vals || x == k
    ensures Put(d, k, v).vals[k] == v
    ensures forall x :: x in d.vals && x != k ==> Put(d, k, v).vals[x] == d.vals[x]
    ensures d.keys <= Put(d, k, v).keys
    ensures k in d.vals ==> Put(d, k, v).keys == d.keys
    ensures k !in d.vals ==> Put(d, k, v).keys == d.keys + [k]
  {
    var r := Put(d, k, v);
    if k !in d.vals {
      forall i, j | 0 <= i < j < |r.keys| ensures r.keys[i] != r.keys[j] {
        if j == |d.keys| {
          assert r.keys[i] in d.vals;
        }
      }
    }
  }

  /** The key of each entry, in order. */
  function KeysOf<T>(es: seq<(string, T)>): (ks: seq<string>)
    ensures |ks| == |es| && forall i :: 0 <= i < |es| ==> ks[i] == es[i].0
  {
    seq(|es|, i requires 0 <= i < |es| => es[i].0)
  }

  /** Assign the entries `es` one after another, as a loop of `d[k] = v` does. */
  function PutAll<T>(d: Dict<T>, es: seq<(string, T)>): Dict<T>
    decreases |es|
  {
    if es == [] then d else Put(PutAll(d, es[..|es| - 1]), es[|es| - 1].0, es[|es| - 1].1)
  }

  lemma PutAllSnoc<T>(d: Dict<T>, es: seq<(string, T)>, e: (string, T))
    ensures PutAll(d, es + [e]) == Put(PutAll(d, es), e.0, e.1)
  {
    assert (es + [e])[..|es|] == es;
  }

  /** One more loop iteration: the first `i + 1` entries are the first `i` and then entry `i`. */
  lemma PutAllStep<T>(d: Dict<T>, es: seq<(string, T)>, i: nat)
    requires i < |es|
    ensures PutAll(d, es[..i + 1]) == Put(PutAll(d, es[..i]), es[i].0, es[i].1)
  {
    assert es[..i + 1][..i] == es[..i];
  }

  /** A run of assignments keeps the dict well formed, and what was there before stays in front. */
  lemma {:induction false} PutAllValid<T>(d: Dict<T>, es: seq<(string, T)>)
    requires Valid(d)
    ensures Valid(PutAll(d, es))
    ensures d.keys <= PutAll(d, es).keys
    decreases |es|
  {
    if es != [] {
      var n := |es| - 1;
      PutAllValid(d, es[..n]);
      PutEntry(PutAll(d, es[..n]), es[n].0, es[n].1);
    }
  }

  /** After a run of assignments a key is present iff it was present before or was assigned. */
  lemma {:induction false} PutAllHas<T>(d: Dict<T>, es: seq<(string, T)>, x: string)
    ensures x in PutAll(d, es).vals <==> x in d.vals || exists i :: 0 <= i < |es| && es[i].0 == x
    decreases |es|
  {
    if es != [] {
      var n := |es| - 1;
      PutAllHas(d, es[..n], x);
      if exists i :: 0 <= i < n && es[..n][i].0 == x {
        var i :| 0 <= i < n && es[..n][i].0 == x;
        assert es[i].0 == x;
      }
      if exists i :: 0 <= i < |es| && es[i].0 == x {
        var i :| 0 <= i < |es| && es[i].0 == x;
        if i < n {
          assert es[..n][i].0 == x;
        }
      }
    }
  }

  /** The later assignment wins: a key holds the tensor of the last entry that assigned it. */
  lemma {:induction false} PutAllLast<T>(d: Dict<T>, es: seq<(string, T)>, i: nat)
    requires i < |es|
    requires forall j :: i < j < |es| ==> es[j].0 != es[i].0
    ensures es[i].0 in PutAll(d, es).vals && PutAll(d, es).vals[es[i].0] == es[i].1
    decreases |es|
  {
    var n := |es| - 1;
    if i < n {
      assert es[..n][i] == es[i];
      PutAllLast(d, es[..n], i);
    }
  }

  /** A key that no entry assigns keeps its tensor. */
  lemma {:induction false} PutAllUnassigned<T>(d: Dict<T>, es: seq<(string, T)>, x: string)
    requires x in d.vals
    requires forall i :: 0 <= i < |es| ==> es[i].0 != x
    ensures x in PutAll(d, es).vals && PutAll(d, es).vals[x] == d.vals[x]
    decreases |es|
  {
    if es != [] {
      var n := |es| - 1;
      assert forall i :: 0 <= i < n ==> es[..n][i] == es[i];
      PutAllUnassigned(d, es[..n], x);
    }
  }

  /** Assigning distinct new keys appends them in order. */
  lemma {:induction false} PutAllFresh<T>(d: Dict<T>, es: seq<(string, T)>)
    requires Valid(d)
    requires Distinct(KeysOf(es))
    requires forall i :: 0 <= i < |es| ==> es[i].0 !in d.vals
    ensures PutAll(d, es).keys == d.keys + KeysOf(es)
    decreases |es|
  {
    if es != [] {
      var n := |es| - 1;
      var front, k := es[..n], es[n].0;
      assert KeysOf(es) == KeysOf(front) + [k];
      PutAllFresh(d, front);
      PutAllValid(d, front);
      assert k !in KeysOf(front) && k !in d.keys;
      PutEntry(PutAll(d, front), k, es[n].1);
    }
  }

  /** Assigning the same key twice leaves one entry with the second tensor. */
  lemma PutTwice<T>(x: string, a: T, b: T)
    ensures PutAll(Empty(), [(x, a), (x, b)]) == Dict([x], map[x := b])
  {
    PutAllSnoc(Empty(), [], (x, a));
    PutAllSnoc(Empty(), [(x, a)], (x, b));
    assert [] + [(x, a)] == [(x, a)] && [(x, a)] + [(x, b)] == [(x, a), (x, b)];
    assert Put(Empty(), x, a) == Dict([x], map[x := a]);
    assert map[x := a][x := b] == map[x := b];
  }

  /** The entries of `d` in order. */
  function Entries<T>(d: Dict<T>): (es: seq<(string, T)>)
    requires Valid(d)
    ensures KeysOf(es) == d.keys
    ensures forall i :: 0 <= i < |es| ==> es[i].1 == d.vals[d.keys[i]]
  {
    seq(|d.keys|, i requires 0 <= i < |d.keys| => (d.keys[i], d.vals[d.keys[i]]))
  }

  /** `{**a, **b}`: the entries of `a`, then those of `b`, a later value winning. */
  function Merge<T>(a: Dict<T>, b: Dict<T>): Dict<T>
    requires Valid(b)
  {
    PutAll(a, Entries(b))
  }

  /** One key of a merge: present iff in either dict, with `b`'s tensor when `b` has it. */
  lemma MergeEntry<T>(a: Dict<T>, b: Dict<T>, x: string)
    requires Valid(b)
    ensures x in Merge(a, b).vals <==> x in a.vals || x in b.vals
    ensures x in b.vals ==> Merge(a, b).vals[x] == b.vals[x]
    ensures x in a.vals && x !in b.vals ==> Merge(a, b).vals[x] == a.vals[x]
  {
    var es := Entries(b);
    PutAllHas(a, es, x);
    if x in b.vals {
      var i :| 0 <= i < |b.keys| && b.keys[i] == x;
      assert es[i].0 == x;
      PutAllLast(a, es, i);
    } else {
      assert forall i :: 0 <= i < |es| ==> es[i].0 != x;
      if x in a.vals {
        PutAllUnassigned(a, es, x);
      }
    }
  }

  /** Merging keeps `a`'s order in front, and its tensors are exactly `a`'s overridden by `b`'s. */
  lemma MergeValues<T>(a: Dict<T>, b: Dict<T>)
    requires Valid(a) && Valid(b)
    ensures Valid(Merge(a, b))
    ensures a.keys <= Merge(a, b).keys
    ensures Merge(a, b).vals == a.vals + b.vals
  {
    PutAllValid(a, Entries(b));
    forall x {
      MergeEntry(a, b, x);
    }
  }

  /** When no key is shared, merging concatenates the two key orders. */
  lemma MergeDisjoint<T>(a: Dict<T>, b: Dict<T>)
    requires Valid(a) && Valid(b)
    requires forall k :: k in b.vals ==> k !in a.vals
    ensures Merge(a, b).keys == a.keys + b.keys
  {
    PutAllFresh(a, Entries(b));
  }

  /**
   * A state dict that is updated in place (`state_dict.update({...})`).
   * The fields are the key order and the tensor map.
   */
  class StateDict<T> {
    var keys: seq<string>
    var tensors: map<string, T>

    function Value(): Dict<T>
      reads this
    {
      Dict(keys, tensors)
    }

    constructor (d: Dict<T>)
      ensures Value() == d
    {
      keys := d.keys;
      tensors := d.vals;
    }

    /** `self[k] = v` */
    method Update(k: string, v: T)
      modifies this
      ensures Value() == Put(old(Value()), k, v)
    {
      if k !in tensors {
        keys := keys + [k];
      }
      tensors := tensors[k := v];
    }
  }
}

=== FILE: tensors.dfy ===
/**
 * Loading a role's tensors under a new prefix, and re-indexing layers.
 * A tensor file is modelled as the state dict it yields: its key order and
 * its tensors.
 */
module Tensors {
  import opened Keys
  import opened StateDicts

  //--------------------------------- loading --------------------------------//

  /** A non-empty prefix is made to end with '.'; the empty prefix stays empty. */
  function NormalizePrefix(p: string): (r: string)
    ensures p == "" ==> r == ""
    ensures p != "" ==> EndsWith(r, ".") && StartsWith(r, p) && |r| <= |p| + 1
    ensures p == "" || EndsWith(p, ".") ==> r == p
  {
    if p != "" && !EndsWith(p, ".") then p + "." else p
  }

  /** The key with `prefix` swapped for `target`. */
  function Renamed(key: string, prefix: string, target: string): string
    requires StartsWith(key, prefix)
  {
    target + key[|prefix|..]
  }

  /** Two keys under the same prefix are renamed to the same key only if they are the same key. */
  lemma RenamedInjective(a: string, b: string, prefix: string, target: string)
    requires StartsWith(a, prefix) && StartsWith(b, prefix)
    requires Renamed(a, prefix, target) == Renamed(b, prefix, target)
    ensures a == b
  {
    assert a[|prefix|..] == Renamed(a, prefix, target)[|target|..];
    assert b[|prefix|..] == Renamed(b, prefix, target)[|target|..];
    assert a == a[..|prefix|] + a[|prefix|..];
    assert b == b[..|prefix|] + b[|prefix|..];
  }

  /** The entries the loading loop assigns, for the keys `ks` in order. */
  function LoadEntries<T>(file: Dict<T>, ks: seq<string>, prefix: string, target: string): seq<(string, T)>
    requires forall k :: k in ks ==> k in file.vals
    decreases |ks|
  {
    if ks == [] then []
    else
      var n := |ks| - 1;
      var front := LoadEntries(file, ks[..n], prefix, target);
      if StartsWith(ks[n], prefix) then front + [(Renamed(ks[n], prefix, target), file.vals[ks[n]])] else front
  }

  /** Loading one more key adds at most one entry at the end. */
  lemma LoadEntriesStep<T>(file: Dict<T>, ks: seq<string>, prefix: string, target: string)
    requires ks != [] && forall k :: k in ks ==> k in file.vals
    ensures var n := |ks| - 1;
      LoadEntries(file, ks, prefix, target) ==
        LoadEntries(file, ks[..n], prefix, target) +
        (if StartsWith(ks[n], prefix) then [(Renamed(ks[n], prefix, target), file.vals[ks[n]])] else [])
  {
  }

  /** The `i`-th loaded entry is a matching key, renamed, with its own tensor. */
  lemma {:induction false} LoadEntryOrigin<T>(file: Dict<T>, ks: seq<string>, prefix: string, target: string, i: nat)
    requires forall k :: k in ks ==> k in file.vals
    requires i < |LoadEntries(file, ks, prefix, target)|
    ensures exists k :: (k in ks && StartsWith(k, prefix) &&
      LoadEntries(file, ks, prefix, target)[i] == (Renamed(k, prefix, target), file.vals[k]))
    decreases |ks|
  {
    var n := |ks| - 1;
    var front := ks[..n];
    var fes := LoadEntries(file, front, prefix, target);
    LoadEntriesStep(file, ks, prefix, target);
    if i < |fes| {
      LoadEntryOrigin(file, front, prefix, target, i);
      var k :| k in front && StartsWith(k, prefix) && fes[i] == (Renamed(k, prefix, target), file.vals[k]);
      assert k in ks;
    } else {
      assert ks[n] in ks;
    }
  }

  /** A matching key is loaded, at some position. */
  lemma {:induction false} LoadEntryOf<T>(file: Dict<T>, ks: seq<string>, prefix: string, target: string, k: string)
    requires forall k :: k in ks ==> k in file.vals
    requires k in ks && StartsWith(k, prefix)
    ensures exists i :: (0 <= i < |LoadEntries(file, ks, prefix, target)| &&
      LoadEntries(file, ks, prefix, target)[i].0 == Renamed(k, prefix, target))
    decreases |ks|
  {
    var n := |ks| - 1;
    var front := ks[..n];
    var es := LoadEntries(file, ks, prefix, target);
    var fes := LoadEntries(file, front, prefix, target);
    LoadEntriesStep(file, ks, prefix, target);
    if k in front {
      LoadEntryOf(file, front, prefix, target, k);
      var i :| 0 <= i < |fes| && fes[i].0 == Renamed(k, prefix, target);
      assert es[i] == fes[i];
    } else {
      assert ks == front + [ks[n]];
      assert es[|fes|].0 == Renamed(k, prefix, target);
    }
  }

  /** Distinct file keys give distinct loaded keys. */
  lemma {:induction false} LoadEntriesDistinct<T>(file: Dict<T>, ks: seq<string>, prefix: string, target: string)
    requires forall k :: k in ks ==> k in file.vals
    requires Distinct(ks)
    ensures Distinct(KeysOf(LoadEntries(file, ks, prefix, target)))
    decreases |ks|
  {
    if ks != [] {
      var n := |ks| - 1;
      var front := ks[..n];
      var es := LoadEntries(file, ks, prefix, target);
      var fes := LoadEntries(file, front, prefix, target);
      LoadEntriesStep(file, ks, prefix, target);
      LoadEntriesDistinct(file, front, prefix, target);
      if StartsWith(ks[n], prefix) {
        forall i | 0 <= i < |fes| ensures fes[i].0 != Renamed(ks[n], prefix, target) {
          LoadEntryOrigin(file, front, prefix, target, i);
          var k :| k in front && StartsWith(k, prefix) && fes[i] == (Renamed(k, prefix, target), file.vals[k]);
          var m :| 0 <= m < n && front[m] == k;
          assert ks[m] != ks[n];
          if Renamed(k, prefix, target) == Renamed(ks[n], prefix, target) {
            RenamedInjective(k, ks[n], prefix, target);
          }
        }
        forall i, j | 0 <= i < j < |es| ensures KeysOf(es)[i] != KeysOf(es)[j] {
          if j < |fes| {
            assert KeysOf(fes)[i] != KeysOf(fes)[j];
          }
        }
      }
    }
  }

  /** `load_tensors` as a value: the file's matching entries, renamed, in file order. */
  function Loaded<T>(file: Dict<T>, prefix: string, target: string): (r: Dict<T>)
    requires Valid(file)
    ensures Valid(r)
  {
    var es := LoadEntries(file, file.keys, NormalizePrefix(prefix), NormalizePrefix(target));
    PutAllValid(Empty(), es);
    PutAll(Empty(), es)
  }

  /** With both prefixes normalised, a key is loaded iff it is a renamed key that started with the source prefix. */
  lemma LoadedHas<T>(file: Dict<T>, prefix: string, target: string)
    requires Valid(file)
    ensures var p, t := NormalizePrefix(prefix), NormalizePrefix(target);
      forall x :: x in Loaded(file, prefix, target).vals <==>
        exists k :: k in file.keys && StartsWith(k, p) && x == Renamed(k, p, t)
  {
    var p, t := NormalizePrefix(prefix), NormalizePrefix(target);
    var es := LoadEntries(file, file.keys, p, t);
    forall x ensures x in PutAll(Empty(), es).vals <==> exists k :: k in file.keys && StartsWith(k, p) && x == Renamed(k, p, t) {
      PutAllHas(Empty(), es, x);
      if exists i :: 0 <= i < |es| && es[i].0 == x {
        var i :| 0 <= i < |es| && es[i].0 == x;
        LoadEntryOrigin(file, file.keys, p, t, i);
      }
      if exists k :: k in file.keys && StartsWith(k, p) && x == Renamed(k, p, t) {
        var k :| k in file.keys && StartsWith(k, p) && x == Renamed(k, p, t);
        LoadEntryOf(file, file.keys, p, t, k);
      }
    }
  }

  /** Each matching key's tensor is found under its renamed key. */
  lemma LoadedValue<T>(file: Dict<T>, prefix: string, target: string, k: string)
    requires Valid(file)
    requires k in file.vals && StartsWith(k, NormalizePrefix(prefix))
    ensures var p, t := NormalizePrefix(prefix), NormalizePrefix(target);
      Renamed(k, p, t) in Loaded(file, prefix, target).vals &&
      Loaded(file, prefix, target).vals[Renamed(k, p, t)] == file.vals[k]
  {
    var p, t := NormalizePrefix(prefix), NormalizePrefix(target);
    var es := LoadEntries(file, file.keys, p, t);
    LoadEntriesDistinct(file, file.keys, p, t);
    LoadEntryOf(file, file.keys, p, t, k);
    var i :| 0 <= i < |es| && es[i].0 == Renamed(k, p, t);
    LoadEntryOrigin(file, file.keys, p, t, i);
    var k' :| k' in file.keys && StartsWith(k', p) && es[i] == (Renamed(k', p, t), file.vals[k']);
    RenamedInjective(k, k', p, t);
    forall j | i < j < |es| ensures es[j].0 != es[i].0 {
      assert KeysOf(es)[i] != KeysOf(es)[j];
    }
    PutAllLast(Empty(), es, i);
  }

  /** The loaded keys come in file order. */
  lemma LoadedOrder<T>(file: Dict<T>, prefix: string, target: string)
    requires Valid(file)
    ensures Loaded(file, prefix, target).keys ==
      KeysOf(LoadEntries(file, file.keys, NormalizePrefix(prefix), NormalizePrefix(target)))
  {
    var es := LoadEntries(file, file.keys, NormalizePrefix(prefix), NormalizePrefix(target));
    LoadEntriesDistinct(file, file.keys, NormalizePrefix(prefix), NormalizePrefix(target));
    PutAllFresh(Empty(), es);
  }

  /** A source prefix of "" loads every key, and with an empty target too the file comes back unchanged. */
  lemma {:induction false} LoadEverything<T>(file: Dict<T>)
    requires Valid(file)
    ensures Loaded(file, "", "") == file
  {
    assert NormalizePrefix("") == "";
    var r := Loaded(file, "", "");
    assert r.keys == file.keys by {
      LoadEntriesKeepAll(file, file.keys);
      LoadedOrder(file, "", "");
    }
    forall x | x in r.vals ensures r.vals[x] == file.vals[x] {
      RenamedEmpty(x);
      LoadedValue(file, "", "", x);
    }
    assert r.vals == file.vals;
  }


  /** With both prefixes empty a key is renamed to itself. */
  lemma RenamedEmpty(k: string)
    ensures StartsWith(k, "") && Renamed(k, "", "") == k
  {
    assert k[0..] == k;
  }


  lemma {:induction false} LoadEntriesKeepAll<T>(file: Dict<T>, ks: seq<string>)
    requires forall k :: k in ks ==> k in file.vals
    ensures KeysOf(LoadEntries(file, ks, "", "")) == ks
    decreases |ks|
  {
    if ks != [] {
      var n := |ks| - 1;
      LoadEntriesKeepAll(file, ks[..n]);
      RenamedEmpty(ks[n]);
      assert ks == ks[..n] + [ks[n]];
    }
  }

  /** `load_tensors`: normalise both prefixes, then copy each matching key under the target prefix. */
  method LoadTensors<T>(file: Dict<T>, prefix: string, targetPrefix: string) returns (tensors: Dict<T>)
    requires Valid(file)
    ensures tensors == Loaded(file, prefix, targetPrefix)
    ensures var p, t := NormalizePrefix(prefix), NormalizePrefix(targetPrefix);
      forall x :: x in tensors.vals <==> exists k :: k in file.keys && StartsWith(k, p) && x == Renamed(k, p, t)
    ensures var p, t := NormalizePrefix(prefix), NormalizePrefix(targetPrefix);
      forall k :: k in file.vals && StartsWith(k, p) ==>
        Renamed(k, p, t) in tensors.vals && tensors.vals[Renamed(k, p, t)] == file.vals[k]
  {
    var p := prefix;
    if p != "" && !EndsWith(p, ".") {
      p := p + ".";
    }
    var t := targetPrefix;
    if t != "" && !EndsWith(t, ".") {
      t := t + ".";
    }
    tensors := Empty();
    var prefixLen := |p|;
    for i := 0 to |file.keys|
      invariant tensors == PutAll(Empty(), LoadEntries(file, file.keys[..i], p, t))
    {
      var key := file.keys[i];
      assert file.keys[..i + 1][..i] == file.keys[..i];
      LoadEntriesStep(file, file.keys[..i + 1], p, t);
      if StartsWith(key, p) {
        var targetKey := t + key[prefixLen..];
        PutAllSnoc(Empty(), LoadEntries(file, file.keys[..i], p, t), (targetKey, file.vals[key]));
        tensors := Put(tensors, targetKey, file.vals[key]);
      }
    }
    assert file.keys[..|file.keys|] == file.keys;
    LoadedHas(file, prefix, targetPrefix);
    forall k | k in file.vals && StartsWith(k, p)
      ensures Renamed(k, p, t) in tensors.vals && tensors.vals[Renamed(k, p, t)] == file.vals[k]
    {
      LoadedValue(file, prefix, targetPrefix, k);
    }
  }

  //-------------------------------- shifting -------------------------------//

  /** The segment right after the layer prefix, up to the next '.' (`split('.', 1)[0]`). */
  function LayerSegment(key: string, layerPrefix: string): string
    requires StartsWith(key, layerPrefix)
  {
    var rest := key[|layerPrefix|..];
    rest[..FirstDot(rest)]
  }

  /** `f".{parts[1]}" if len(parts) > 1 else ""`: the rest of the key after the layer segment. */
  function DotSuffix(key: string, layerPrefix: string): (r: string)
    requires StartsWith(key, layerPrefix)
    ensures r == [] || r[0] == '.'
  {
    var rest := key[|layerPrefix|..];
    var cut := FirstDot(rest);
    if cut < |rest| then "." + rest[cut + 1..] else ""
  }

  /** The two parts and the prefix put back together give the key. */
  lemma LayerParts(key: string, layerPrefix: string)
    requires StartsWith(key, layerPrefix)
    ensures key == layerPrefix + LayerSegment(key, layerPrefix) + DotSuffix(key, layerPrefix)
  {
    var rest := key[|layerPrefix|..];
    var cut := FirstDot(rest);
    var suffix := DotSuffix(key, layerPrefix);
    assert suffix == rest[cut..] by {
      if cut < |rest| {
        assert rest[cut..] == [rest[cut]] + rest[cut + 1..];
      }
    }
    calc {
      layerPrefix + LayerSegment(key, layerPrefix) + suffix;
      layerPrefix + (rest[..cut] + rest[cut..]);
      { assert rest[..cut] + rest[cut..] == rest; }
      key[..|layerPrefix|] + key[|layerPrefix|..];
    }
  }

  /** A key under the layer prefix whose next segment is a decimal layer number. */
  predicate IsLayerKey(key: string, layerPrefix: string) {
    StartsWith(key, layerPrefix) && IsDecimal(LayerSegment(key, layerPrefix))
  }

  /** The key as `shift_layers` renames it. */
  function ShiftKey(key: string, layerPrefix: string, offset: int): string {
    if !StartsWith(key, layerPrefix) then key
    else if !IsDecimal(LayerSegment(key, layerPrefix)) then key
    else layerPrefix + IntToString(DecimalValue(LayerSegment(key, layerPrefix)) + offset) + DotSuffix(key, layerPrefix)
  }

  /** A key built as prefix, dot-free segment and suffix splits back into exactly those parts. */
  lemma LayerSplit(layerPrefix: string, d: string, rest: string)
    requires forall i :: 0 <= i < |d| ==> d[i] != '.'
    requires rest == [] || rest[0] == '.'
    ensures StartsWith(layerPrefix + d + rest, layerPrefix)
    ensures LayerSegment(layerPrefix + d + rest, layerPrefix) == d
    ensures DotSuffix(layerPrefix + d + rest, layerPrefix) == rest
  {
    var key := layerPrefix + d + rest;
    assert StartsWith(key, layerPrefix) by {
      assert key[..|layerPrefix|] == layerPrefix;
    }
    var parts := key[|layerPrefix|..];
    assert parts == d + rest;
    FirstDotAfter(d, rest);
    assert parts[..|d|] == d;
    assert parts[|d|..] == rest;
    if |d| < |parts| {
      assert rest == [rest[0]] + parts[|d| + 1..];
    }
  }

  /**
   * `layer_prefix + d + rest`, with `d` all decimal digits and `rest` empty or
   * starting with '.', becomes `layer_prefix + str(int(d) + offset) + rest`.
   */
  lemma ShiftKeyLayer(layerPrefix: string, d: string, rest: string, offset: int)
    requires IsDecimal(d)
    requires rest == [] || rest[0] == '.'
    ensures ShiftKey(layerPrefix + d + rest, layerPrefix, offset) ==
      layerPrefix + IntToString(DecimalValue(d) + offset) + rest
  {
    LayerSplit(layerPrefix, d, rest);
  }

  /** Keys outside the prefix, or whose next segment is not a number, keep their name. */
  lemma ShiftKeyOther(key: string, layerPrefix: string, offset: int)
    requires !IsLayerKey(key, layerPrefix)
    ensures ShiftKey(key, layerPrefix, offset) == key
  {
  }

  /** Re-indexing keeps a key under the layer prefix. */
  lemma ShiftKeyKeepsPrefix(key: string, layerPrefix: string, offset: int)
    requires StartsWith(key, layerPrefix)
    ensures StartsWith(ShiftKey(key, layerPrefix, offset), layerPrefix)
  {
    if IsLayerKey(key, layerPrefix) {
      var r := ShiftKey(key, layerPrefix, offset);
      var n := IntToString(DecimalValue(LayerSegment(key, layerPrefix)) + offset);
      assert r == layerPrefix + (n + DotSuffix(key, layerPrefix));
    }
  }

  /** A layer key shifted to a non-negative number is still a layer key, numbered `n + offset`. */
  lemma ShiftKeyStaysLayer(key: string, layerPrefix: string, offset: int)
    requires IsLayerKey(key, layerPrefix)
    requires DecimalValue(LayerSegment(key, layerPrefix)) + offset >= 0
    ensures var shifted := ShiftKey(key, layerPrefix, offset);
      IsLayerKey(shifted, layerPrefix) &&
      DecimalValue(LayerSegment(shifted, layerPrefix)) == DecimalValue(LayerSegment(key, layerPrefix)) + offset
  {
    var d := LayerSegment(key, layerPrefix);
    var tail := DotSuffix(key, layerPrefix);
    LayerParts(key, layerPrefix);
    var m := DecimalValue(d) + offset;
    ShiftKeyLayer(layerPrefix, d, tail, offset);
    LayerSplit(layerPrefix, NatToString(m), tail);
    DecimalValueOfNatToString(m);
  }

  /** Shifting by `offset` and back by `-offset` restores a layer key written without leading zeros. */
  lemma ShiftKeyRoundTrip(key: string, layerPrefix: string, offset: int)
    requires IsLayerKey(key, layerPrefix) && IsCanonical(LayerSegment(key, layerPrefix))
    requires DecimalValue(LayerSegment(key, layerPrefix)) + offset >= 0
    ensures ShiftKey(ShiftKey(key, layerPrefix, offset), layerPrefix, -offset) == key
  {
    var d := LayerSegment(key, layerPrefix);
    var tail := DotSuffix(key, layerPrefix);
    var m := DecimalValue(d) + offset;
    var shifted := layerPrefix + NatToString(m) + tail;
    assert ShiftKey(key, layerPrefix, offset) == shifted by {
      LayerParts(key, layerPrefix);
      ShiftKeyLayer(layerPrefix, d, tail, offset);
    }
    assert ShiftKey(shifted, layerPrefix, -offset) == layerPrefix + NatToString(DecimalValue(d)) + tail by {
      ShiftKeyLayer(layerPrefix, NatToString(m), tail, -offset);
      DecimalValueOfNatToString(m);
      var back := DecimalValue(NatToString(m)) - offset;
      assert back == DecimalValue(d);
      assert IntToString(back) == NatToString(DecimalValue(d));
    }
    NatToStringOfDecimalValue(d);
    LayerParts(key, layerPrefix);
  }

  lemma LeadingZeroValue()
    ensures IsDecimal("01") && IsDecimal("1")
    ensures DecimalValue("01") == DecimalValue("1") == 1
  {
    assert "01"[..1] == "0";
    assert "0"[..0] == [] && "1"[..0] == [];
  }

  /** Leading zeros are lost: "01" and "1" land on the same layer number. */
  lemma ShiftKeyLeadingZeros(layerPrefix: string, rest: string, offset: int)
    requires rest == [] || rest[0] == '.'
    ensures ShiftKey(layerPrefix + "01" + rest, layerPrefix, offset) == ShiftKey(layerPrefix + "1" + rest, layerPrefix, offset)
  {
    LeadingZeroValue();
    ShiftKeyLayer(layerPrefix, "01", rest, offset);
    ShiftKeyLayer(layerPrefix, "1", rest, offset);
  }

  /** A key whose layer number, if it has one, is written as `str` writes it. */
  predicate CanonicalLayer(key: string, layerPrefix: string) {
    IsLayerKey(key, layerPrefix) ==> IsCanonical(LayerSegment(key, layerPrefix))
  }

  /** Renaming the prefix keeps the layer segment, and with it whether the key is a layer key. */
  lemma RenamedLayer(key: string, prefix: string, target: string)
    requires StartsWith(key, prefix)
    ensures StartsWith(Renamed(key, prefix, target), target)
    ensures LayerSegment(Renamed(key, prefix, target), target) == LayerSegment(key, prefix)
    ensures CanonicalLayer(Renamed(key, prefix, target), target) <==> CanonicalLayer(key, prefix)
  {
    var r := Renamed(key, prefix, target);
    assert r[..|target|] == target;
    assert r[|target|..] == key[|prefix|..];
  }

  /** With a non-negative offset, shifting never merges two keys whose layer numbers have no leading zeros. */
  lemma ShiftKeyInjective(a: string, b: string, layerPrefix: string, offset: nat)
    requires CanonicalLayer(a, layerPrefix) && CanonicalLayer(b, layerPrefix)
    requires ShiftKey(a, layerPrefix, offset) == ShiftKey(b, layerPrefix, offset)
    ensures a == b
  {
    if IsLayerKey(a, layerPrefix) && IsLayerKey(b, layerPrefix) {
      ShiftKeyRoundTrip(a, layerPrefix, offset);
      ShiftKeyRoundTrip(b, layerPrefix, offset);
    } else if IsLayerKey(a, layerPrefix) {
      ShiftKeyOther(b, layerPrefix, offset);
      ShiftKeyStaysLayer(a, layerPrefix, offset);
    } else if IsLayerKey(b, layerPrefix) {
      ShiftKeyOther(a, layerPrefix, offset);
      ShiftKeyStaysLayer(b, layerPrefix, offset);
    } else {
      ShiftKeyOther(a, layerPrefix, offset);
      ShiftKeyOther(b, layerPrefix, offset);
    }
  }

  /** The entries the shifting loop assigns: each key, renamed, with its tensor. */
  function ShiftEntries<T>(d: Dict<T>, layerPrefix: string, offset: int): (es: seq<(string, T)>)
    requires Valid(d)
    ensures |es| == |d.keys|
  {
    seq(|d.keys|, i requires 0 <= i < |d.keys| => (ShiftKey(d.keys[i], layerPrefix, offset), d.vals[d.keys[i]]))
  }

  /** Shifting one more key is one more assignment, of the shifted key and its tensor. */
  lemma ShiftEntriesStep<T>(d: Dict<T>, layerPrefix: string, offset: int, i: nat)
    requires Valid(d) && i < |d.keys|
    ensures var es := ShiftEntries(d, layerPrefix, offset);
      PutAll(Empty(), es[..i + 1]) ==
        Put(PutAll(Empty(), es[..i]), ShiftKey(d.keys[i], layerPrefix, offset), d.vals[d.keys[i]])
  {
    PutAllStep(Empty(), ShiftEntries(d, layerPrefix, offset), i);
  }

  /** `shift_layers` as a value: every entry re-added under its shifted key, a later entry winning a collision. */
  function Shifted<T>(d: Dict<T>, layerPrefix: string, offset: int): (r: Dict<T>)
    requires Valid(d)
    ensures Valid(r)
  {
    PutAllValid(Empty(), ShiftEntries(d, layerPrefix, offset));
    PutAll(Empty(), ShiftEntries(d, layerPrefix, offset))
  }

  /** The shifted dict holds exactly the shifted keys. */
  lemma ShiftedHas<T>(d: Dict<T>, layerPrefix: string, offset: int, x: string)
    requires Valid(d)
    ensures x in Shifted(d, layerPrefix, offset).vals <==>
      exists k :: k in d.keys && ShiftKey(k, layerPrefix, offset) == x
  {
    var es := ShiftEntries(d, layerPrefix, offset);
    PutAllHas(Empty(), es, x);
    if exists i :: 0 <= i < |es| && es[i].0 == x {
      var i :| 0 <= i < |es| && es[i].0 == x;
      assert d.keys[i] in d.keys && ShiftKey(d.keys[i], layerPrefix, offset) == x;
    }
    if exists k :: k in d.keys && ShiftKey(k, layerPrefix, offset) == x {
      var k :| k in d.keys && ShiftKey(k, layerPrefix, offset) == x;
      var i :| 0 <= i < |d.keys| && d.keys[i] == k;
      assert es[i].0 == x;
    }
  }

  /** A key keeps the tensor of the last entry shifted onto it. */
  lemma ShiftedLaterWins<T>(d: Dict<T>, layerPrefix: string, offset: int, i: nat)
    requires Valid(d) && i < |d.keys|
    requires forall j :: i < j < |d.keys| ==>
      ShiftKey(d.keys[j], layerPrefix, offset) != ShiftKey(d.keys[i], layerPrefix, offset)
    ensures var x := ShiftKey(d.keys[i], layerPrefix, offset);
      x in Shifted(d, layerPrefix, offset).vals && Shifted(d, layerPrefix, offset).vals[x] == d.vals[d.keys[i]]
  {
    var es := ShiftEntries(d, layerPrefix, offset);
    assert forall j :: i < j < |es| ==> es[j].0 == ShiftKey(d.keys[j], layerPrefix, offset);
    PutAllLast(Empty(), es, i);
  }

  /**
   * With a non-negative offset nothing lands on a key that is not a layer key,
   * so every such key keeps its name and its tensor.
   */
  lemma ShiftedKeepsOthers<T>(d: Dict<T>, layerPrefix: string, offset: int, k: string)
    requires Valid(d) && offset >= 0
    requires k in d.vals && !IsLayerKey(k, layerPrefix)
    ensures k in Shifted(d, layerPrefix, offset).vals && Shifted(d, layerPrefix, offset).vals[k] == d.vals[k]
  {
    var i :| 0 <= i < |d.keys| && d.keys[i] == k;
    forall j | i < j < |d.keys|
      ensures ShiftKey(d.keys[j], layerPrefix, offset) != ShiftKey(d.keys[i], layerPrefix, offset)
    {
      if IsLayerKey(d.keys[j], layerPrefix) {
        ShiftKeyStaysLayer(d.keys[j], layerPrefix, offset);
      }
    }
    ShiftedLaterWins(d, layerPrefix, offset, i);
  }

  /** When no two keys collide, the keys are renamed in place, in the same order. */
  lemma ShiftedOrder<T>(d: Dict<T>, layerPrefix: string, offset: int)
    requires Valid(d)
    requires forall i, j :: 0 <= i < j < |d.keys| ==>
      ShiftKey(d.keys[i], layerPrefix, offset) != ShiftKey(d.keys[j], layerPrefix, offset)
    ensures Shifted(d, layerPrefix, offset).keys ==
      seq(|d.keys|, i requires 0 <= i < |d.keys| => ShiftKey(d.keys[i], layerPrefix, offset))
  {
    var es := ShiftEntries(d, layerPrefix, offset);
    var renamed := seq(|d.keys|, i requires 0 <= i < |d.keys| => ShiftKey(d.keys[i], layerPrefix, offset));
    assert KeysOf(es) == renamed;
    PutAllFresh(Empty(), es);
  }

  /** When no two keys collide, every tensor is kept under its key's new name. */
  lemma ShiftedKeepsTensors<T>(d: Dict<T>, layerPrefix: string, offset: int)
    requires Valid(d)
    requires forall i, j :: 0 <= i < j < |d.keys| ==>
      ShiftKey(d.keys[i], layerPrefix, offset) != ShiftKey(d.keys[j], layerPrefix, offset)
    ensures forall i :: 0 <= i < |d.keys| ==>
      ShiftKey(d.keys[i], layerPrefix, offset) in Shifted(d, layerPrefix, offset).vals &&
      Shifted(d, layerPrefix, offset).vals[ShiftKey(d.keys[i], layerPrefix, offset)] == d.vals[d.keys[i]]
  {
    forall i | 0 <= i < |d.keys|
      ensures ShiftKey(d.keys[i], layerPrefix, offset) in Shifted(d, layerPrefix, offset).vals &&
        Shifted(d, layerPrefix, offset).vals[ShiftKey(d.keys[i], layerPrefix, offset)] == d.vals[d.keys[i]]
    {
      ShiftedLaterWins(d, layerPrefix, offset, i);
    }
  }

  /** Shifted by one, "01" and "1" both become layer 2. */
  lemma CollidingKeys(layerPrefix: string, rest: string)
    requires rest == [] || rest[0] == '.'
    ensures ShiftKey(layerPrefix + "01" + rest, layerPrefix, 1) == layerPrefix + "2" + rest
    ensures ShiftKey(layerPrefix + "1" + rest, layerPrefix, 1) == layerPrefix + "2" + rest
  {
    LeadingZeroValue();
    ShiftKeyLayer(layerPrefix, "1", rest, 1);
    ShiftKeyLeadingZeros(layerPrefix, rest, 1);
    assert IntToString(2) == "2";
  }

  /**
   * Two layer keys that differ only by a leading zero collide after shifting:
   * one entry remains, at the first key's place, holding the later tensor.
   */
  lemma ShiftedCollision<T>(layerPrefix: string, rest: string, a: T, b: T)
    requires rest == [] || rest[0] == '.'
    ensures var k1, k2 := layerPrefix + "01" + rest, layerPrefix + "1" + rest;
      var x := layerPrefix + "2" + rest;
      Shifted(Dict([k1, k2], map[k1 := a, k2 := b]), layerPrefix, 1) == Dict([x], map[x := b])
  {
    var k1, k2 := layerPrefix + "01" + rest, layerPrefix + "1" + rest;
    var x := layerPrefix + "2" + rest;
    assert k1[|layerPrefix|] != k2[|layerPrefix|];
    var d := Dict([k1, k2], map[k1 := a, k2 := b]);
    CollidingKeys(layerPrefix, rest);
    var es := ShiftEntries(d, layerPrefix, 1);
    assert es[0] == (x, a) && es[1] == (x, b);
    assert es == [(x, a), (x, b)];
    PutTwice(x, a, b);
  }

  /** `shift_layers`: rebuild the dict entry by entry under the shifted keys. */
  method ShiftLayers<T>(stateDict: Dict<T>, layerPrefix: string, layerOffset: int) returns (fixed: Dict<T>)
    requires Valid(stateDict)
    ensures fixed == Shifted(stateDict, layerPrefix, layerOffset)
    ensures forall x :: x in fixed.vals <==> exists k :: k in stateDict.keys && ShiftKey(k, layerPrefix, layerOffset) == x
  {
    ghost var es := ShiftEntries(stateDict, layerPrefix, layerOffset);
    fixed := Empty();
    for i := 0 to |stateDict.keys|
      invariant fixed == PutAll(Empty(), es[..i])
    {
      var key := stateDict.keys[i];
      var tensor := stateDict.vals[key];
      var fixedKey;
      if !StartsWith(key, layerPrefix) {
        fixedKey := key;
      } else if !IsDecimal(LayerSegment(key, layerPrefix)) {
        fixedKey := key;
      } else {
        var newLayerNumber := DecimalValue(LayerSegment(key, layerPrefix)) + layerOffset;
        fixedKey := layerPrefix + IntToString(newLayerNumber) + DotSuffix(key, layerPrefix);
      }
      assert fixedKey == ShiftKey(key, layerPrefix, layerOffset);
      ShiftEntriesStep(stateDict, layerPrefix, layerOffset, i);
      fixed := Put(fixed, fixedKey, tensor);
    }
    assert es[..|stateDict.keys|] == es;
    forall x ensures x in fixed.vals <==> exists k :: k in stateDict.keys && ShiftKey(k, layerPrefix, layerOffset) == x {
      ShiftedHas(stateDict, layerPrefix, layerOffset, x);
    }
  }
}

=== FILE: transcoder.dfy ===
/**
 * Building a Tiny Transcoder: the encoder's tensors under "transe.", the
 * decoder's under "transd.", the decoder's layers re-indexed when they start
 * at 0, and constant tensors injected for the blur bridge ("transx.") and for
 * input/output range emulation ("in_emu.", "out_emu.").
 *
 * Numeric constants are not modelled: `scalar(c)` stands for the 0-d array
 * built from constant `c`, and `cast` for the optional dtype conversion.
 */
module Transcoder {
  import opened Keys
  import opened Wrappers
  import opened StateDicts
  import opened Tensors

  /** The latent formats that have a scale/shift pair. */
  const LatentFormats: seq<string> := ["sd", "sdxl", "sd3", "f1"]

  // required layers
  const DecoderPrefix: string := "transd."
  const EncoderPrefix: string := "transe."
  // optional, non-trainable layers
  const XBridgePrefix: string := "transx."
  const InputEmulationPrefix: string := "in_emu."
  const OutputEmulationPrefix: string := "out_emu."

  const ReservedPrefixes: seq<string> :=
    [EncoderPrefix, DecoderPrefix, XBridgePrefix, InputEmulationPrefix, OutputEmulationPrefix]

  const BlurKey: string := XBridgePrefix + "gaussian_blur_sigma"
  const InScaleKey: string := InputEmulationPrefix + "scale_factor"
  const InShiftKey: string := InputEmulationPrefix + "shift_factor"
  const OutScaleKey: string := OutputEmulationPrefix + "scale_factor"
  const OutShiftKey: string := OutputEmulationPrefix + "shift_factor"

  /** The decoder key whose presence betrays layers numbered from 0 instead of 1. */
  const MisalignedKey: string := DecoderPrefix + "0.weight"

  /** Where realignment moves the layer-0 weight: layer 1. */
  const RealignedKey: string := DecoderPrefix + "1.weight"

  /** A constant that becomes a tensor: the blur sigma, or a format's scale or shift factor. */
  datatype Constant = BlurSigma(sigma: real) | ScaleFactor(format: string) | ShiftFactor(format: string)

  /** `if sigma:` — neither None nor zero. */
  predicate Truthy(sigma: Option<real>) {
    sigma.Some? && sigma.value != 0.0
  }

  //------------------------- transcoder extra layers ------------------------//

  /** `insert_xbridge_layer`: add or overwrite `target_prefix + "gaussian_blur_sigma"` in place. */
  method InsertXBridgeLayer<T>(stateDict: StateDict<T>, gaussianBlurSigma: T, targetPrefix: string)
    requires Valid(stateDict.Value())
    modifies stateDict
    ensures stateDict.Value() == Put(old(stateDict.Value()), targetPrefix + "gaussian_blur_sigma", gaussianBlurSigma)
    ensures Valid(stateDict.Value())
    ensures old(stateDict.keys) <= stateDict.keys
    ensures forall x :: x in stateDict.tensors <==> x in old(stateDict.tensors) || x == targetPrefix + "gaussian_blur_sigma"
    ensures stateDict.tensors[targetPrefix + "gaussian_blur_sigma"] == gaussianBlurSigma
    ensures forall x :: x in old(stateDict.tensors) && x != targetPrefix + "gaussian_blur_sigma" ==>
      stateDict.tensors[x] == old(stateDict.tensors)[x]
  {
    PutEntry(stateDict.Value(), targetPrefix + "gaussian_blur_sigma", gaussianBlurSigma);
    stateDict.Update(targetPrefix + "gaussian_blur_sigma", gaussianBlurSigma);
  }

  /** The two entries the emulation layer assigns. */
  function WithEmulationLayer<T>(d: Dict<T>, scaleFactor: T, shiftFactor: T, targetPrefix: string): Dict<T> {
    Put(Put(d, targetPrefix + "scale_factor", scaleFactor), targetPrefix + "shift_factor", shiftFactor)
  }

  /** Adding the emulation layer sets its two keys and leaves every other entry alone. */
  lemma EmulationLayerEntries<T>(d: Dict<T>, scaleFactor: T, shiftFactor: T, targetPrefix: string)
    requires Valid(d)
    ensures var r := WithEmulationLayer(d, scaleFactor, shiftFactor, targetPrefix);
      Valid(r) && d.keys <= r.keys &&
      (forall x :: x in r.vals <==> x in d.vals || x == targetPrefix + "scale_factor" || x == targetPrefix + "shift_factor") &&
      r.vals[targetPrefix + "scale_factor"] == scaleFactor &&
      r.vals[targetPrefix + "shift_factor"] == shiftFactor &&
      (forall x :: x in d.vals && x != targetPrefix + "scale_factor" && x != targetPrefix + "shift_factor" ==>
        r.vals[x] == d.vals[x])
  {
    var scaleKey, shiftKey := targetPrefix + "scale_factor", targetPrefix + "shift_factor";
    assert scaleKey[|targetPrefix| + 1] != shiftKey[|targetPrefix| + 1];
    PutEntry(d, scaleKey, scaleFactor);
    PutEntry(Put(d, scaleKey, scaleFactor), shiftKey, shiftFactor);
  }

  /** `insert_emulation_layer`: add or overwrite the scale and shift factors in place. */
  method InsertEmulationLayer<T>(stateDict: StateDict<T>, scaleFactor: T, shiftFactor: T, targetPrefix: string)
    requires Valid(stateDict.Value())
    modifies stateDict
    ensures stateDict.Value() == WithEmulationLayer(old(stateDict.Value()), scaleFactor, shiftFactor, targetPrefix)
    ensures Valid(stateDict.Value())
    ensures old(stateDict.keys) <= stateDict.keys
    ensures forall x :: x in stateDict.tensors <==>
      x in old(stateDict.tensors) || x == targetPrefix + "scale_factor" || x == targetPrefix + "shift_factor"
    ensures stateDict.tensors[targetPrefix + "scale_factor"] == scaleFactor
    ensures stateDict.tensors[targetPrefix + "shift_factor"] == shiftFactor
    ensures forall x :: x in old(stateDict.tensors) && x != targetPrefix + "scale_factor" && x != targetPrefix + "shift_factor" ==>
      stateDict.tensors[x] == old(stateDict.tensors)[x]
  {
    EmulationLayerEntries(stateDict.Value(), scaleFactor, shiftFactor, targetPrefix);
    stateDict.Update(targetPrefix + "scale_factor", scaleFactor);
    stateDict.Update(targetPrefix + "shift_factor", shiftFactor);
  }

  //-------------------------------- building --------------------------------//

  /** The tensor after the optional dtype conversion. */
  function CastValue<T>(cast: Option<T -> T>, v: T): T {
    match cast
    case None => v
    case Some(f) => f(v)
  }

  /** Every entry converted, keys and their order untouched. */
  function Converted<T>(d: Dict<T>, cast: Option<T -> T>): Dict<T> {
    match cast
    case None => d
    case Some(f) => Dict(d.keys, map k | k in d.vals :: f(d.vals[k]))
  }

  /** The dtype loop: rebuild the dict entry by entry with each tensor converted. */
  method CastTensors<T>(d: Dict<T>, f: T -> T) returns (converted: Dict<T>)
    requires Valid(d)
    ensures converted == Converted(d, Some(f))
    ensures Valid(converted) && converted.keys == d.keys
    ensures forall k :: k in d.vals ==> k in converted.vals && converted.vals[k] == f(d.vals[k])
  {
    converted := Empty();
    for i := 0 to |d.keys|
      invariant converted.keys == d.keys[..i]
      invariant forall k :: k in converted.vals <==> k in d.keys[..i]
      invariant forall k :: k in converted.vals ==> converted.vals[k] == f(d.vals[k])
    {
      var key := d.keys[i];
      assert key !in d.keys[..i];
      assert d.keys[..i + 1] == d.keys[..i] + [key];
      converted := Put(converted, key, f(d.vals[key]));
    }
    assert d.keys[..|d.keys|] == d.keys;
    assert converted.vals == (map k | k in d.vals :: f(d.vals[k]));
  }

  /** Both halves, loaded and merged. */
  function Merged<T>(encoderFile: Dict<T>, encoderPrefix: string, decoderFile: Dict<T>, decoderPrefix: string): (r: Dict<T>)
    requires Valid(encoderFile) && Valid(decoderFile)
    ensures Valid(r)
  {
    var e := Loaded(encoderFile, encoderPrefix, EncoderPrefix);
    var d := Loaded(decoderFile, decoderPrefix, DecoderPrefix);
    MergeValues(e, d);
    Merge(e, d)
  }

  /** The decoder's layers shifted by one when layer 0 carries a weight. */
  function Realigned<T>(merged: Dict<T>): (r: Dict<T>)
    requires Valid(merged)
    ensures Valid(r)
  {
    if MisalignedKey in merged.vals then Shifted(merged, DecoderPrefix, 1) else merged
  }

  function WithBridge<T>(d: Dict<T>, blurSigma: Option<real>, scalar: Constant -> T): Dict<T> {
    if Truthy(blurSigma) then Put(d, BlurKey, scalar(BlurSigma(blurSigma.value))) else d
  }

  function WithEmulation<T>(d: Dict<T>, emulation: bool, inputFormat: string, outputFormat: string, scalar: Constant -> T): Dict<T> {
    if emulation then
      var withInput := WithEmulationLayer(d, scalar(ScaleFactor(inputFormat)), scalar(ShiftFactor(inputFormat)), InputEmulationPrefix);
      WithEmulationLayer(withInput, scalar(ScaleFactor(outputFormat)), scalar(ShiftFactor(outputFormat)), OutputEmulationPrefix)
    else d
  }

  /** `build_tiny_transcoder` as a value, stage by stage. */
  function Assembled<T>(encoderFile: Dict<T>, encoderPrefix: string, decoderFile: Dict<T>, decoderPrefix: string,
                        inputFormat: string, outputFormat: string, blurSigma: Option<real>, emulation: bool,
                        scalar: Constant -> T, cast: Option<T -> T>): Dict<T>
    requires Valid(encoderFile) && Valid(decoderFile)
  {
    var realigned := Realigned(Merged(encoderFile, encoderPrefix, decoderFile, decoderPrefix));
    Converted(WithEmulation(WithBridge(realigned, blurSigma, scalar), emulation, inputFormat, outputFormat, scalar), cast)
  }

  //------------------------------ properties --------------------------------//

  /** The two required namespaces. */
  predicate InHalves(x: string) {
    StartsWith(x, EncoderPrefix) || StartsWith(x, DecoderPrefix)
  }

  /** No key lies in both halves. */
  lemma HalvesDisjoint(x: string)
    ensures !(StartsWith(x, EncoderPrefix) && StartsWith(x, DecoderPrefix))
  {
    if |x| >= 7 {
      assert x[..7][5] == x[5];
      assert EncoderPrefix[5] != DecoderPrefix[5];
    }
  }

  /** The injected keys lie outside both halves and are pairwise distinct. */
  lemma InjectedKeysApart()
    ensures !InHalves(BlurKey) && !InHalves(InScaleKey) && !InHalves(InShiftKey)
    ensures !InHalves(OutScaleKey) && !InHalves(OutShiftKey)
    ensures BlurKey != InScaleKey && BlurKey != InShiftKey && BlurKey != OutScaleKey && BlurKey != OutShiftKey
    ensures InScaleKey != OutScaleKey && InScaleKey != OutShiftKey
    ensures InShiftKey != OutScaleKey && InShiftKey != OutShiftKey
  {
    assert BlurKey[..7] == XBridgePrefix;
    assert InScaleKey[..7] == InputEmulationPrefix && InShiftKey[..7] == InputEmulationPrefix;
    assert OutScaleKey[..7] == "out_emu" && OutShiftKey[..7] == "out_emu";
  }

  /** Every loaded key starts with the (normalised) target prefix. */
  lemma LoadedUnder<T>(file: Dict<T>, prefix: string, target: string)
    requires Valid(file)
    ensures forall x :: x in Loaded(file, prefix, target).vals ==> StartsWith(x, NormalizePrefix(target))
  {
    var p, t := NormalizePrefix(prefix), NormalizePrefix(target);
    LoadedHas(file, prefix, target);
    forall x | x in Loaded(file, prefix, target).vals ensures StartsWith(x, t) {
      var k :| k in file.keys && StartsWith(k, p) && x == Renamed(k, p, t);
      assert x[..|t|] == t;
    }
  }

  /**
   * After the merge every key lies in one of the two halves, and because the
   * halves cannot share a key the merge is a plain concatenation.
   */
  lemma MergedHalves<T>(encoderFile: Dict<T>, encoderPrefix: string, decoderFile: Dict<T>, decoderPrefix: string)
    requires Valid(encoderFile) && Valid(decoderFile)
    ensures var e := Loaded(encoderFile, encoderPrefix, EncoderPrefix);
      var d := Loaded(decoderFile, decoderPrefix, DecoderPrefix);
      var m := Merged(encoderFile, encoderPrefix, decoderFile, decoderPrefix);
      m.keys == e.keys + d.keys && m.vals == e.vals + d.vals &&
      (forall x :: x in e.vals ==> StartsWith(x, EncoderPrefix)) &&
      (forall x :: x in d.vals ==> StartsWith(x, DecoderPrefix)) &&
      (forall x :: x in m.vals ==> InHalves(x))
  {
    var e := Loaded(encoderFile, encoderPrefix, EncoderPrefix);
    var d := Loaded(decoderFile, decoderPrefix, DecoderPrefix);
    assert NormalizePrefix(EncoderPrefix) == EncoderPrefix;
    assert NormalizePrefix(DecoderPrefix) == DecoderPrefix;
    LoadedUnder(encoderFile, encoderPrefix, EncoderPrefix);
    LoadedUnder(decoderFile, decoderPrefix, DecoderPrefix);
    forall x | x in d.vals ensures x !in e.vals {
      HalvesDisjoint(x);
    }
    MergeValues(e, d);
    MergeDisjoint(e, d);
  }

  /** Realignment keeps every key in its half. */
  lemma RealignedHalves<T>(m: Dict<T>)
    requires Valid(m) && forall x :: x in m.vals ==> InHalves(x)
    ensures forall x :: x in Realigned(m).vals ==> InHalves(x)
  {
    if MisalignedKey in m.vals {
      forall x | x in Realigned(m).vals ensures InHalves(x) {
        ShiftedHas(m, DecoderPrefix, 1, x);
        var k :| k in m.keys && ShiftKey(k, DecoderPrefix, 1) == x;
        if StartsWith(k, DecoderPrefix) {
          ShiftKeyKeepsPrefix(k, DecoderPrefix, 1);
        }
      }
    }
  }

  /** The dtype conversion keeps keys and order and converts every tensor. */
  lemma ConvertedEntries<T>(d: Dict<T>, cast: Option<T -> T>)
    requires Valid(d)
    ensures Valid(Converted(d, cast)) && Converted(d, cast).keys == d.keys
    ensures forall x :: x in Converted(d, cast).vals <==> x in d.vals
    ensures forall x :: x in d.vals ==> Converted(d, cast).vals[x] == CastValue(cast, d.vals[x])
  {
  }

  /** The injected stages add only the injected keys, and keep every other entry. */
  lemma InjectedEntries<T>(r: Dict<T>, blurSigma: Option<real>, emulation: bool,
                           inputFormat: string, outputFormat: string, scalar: Constant -> T)
    requires Valid(r)
    ensures var w := WithEmulation(WithBridge(r, blurSigma, scalar), emulation, inputFormat, outputFormat, scalar);
      Valid(w) &&
      (forall x :: x in w.vals <==> (x in r.vals || (x == BlurKey && Truthy(blurSigma)) ||
         (emulation && (x == InScaleKey || x == InShiftKey || x == OutScaleKey || x == OutShiftKey)))) &&
      (forall x :: x in r.vals && !(x == BlurKey || x == InScaleKey || x == InShiftKey || x == OutScaleKey || x == OutShiftKey) ==>
         w.vals[x] == r.vals[x]) &&
      (Truthy(blurSigma) ==> w.vals[BlurKey] == scalar(BlurSigma(blurSigma.value))) &&
      (emulation ==> w.vals[InScaleKey] == scalar(ScaleFactor(inputFormat)) &&
                     w.vals[InShiftKey] == scalar(ShiftFactor(inputFormat)) &&
                     w.vals[OutScaleKey] == scalar(ScaleFactor(outputFormat)) &&
                     w.vals[OutShiftKey] == scalar(ShiftFactor(outputFormat)))
  {
    InjectedKeysApart();
    var b := WithBridge(r, blurSigma, scalar);
    if Truthy(blurSigma) {
      PutEntry(r, BlurKey, scalar(BlurSigma(blurSigma.value)));
    }
    if emulation {
      var i := WithEmulationLayer(b, scalar(ScaleFactor(inputFormat)), scalar(ShiftFactor(inputFormat)), InputEmulationPrefix);
      EmulationLayerEntries(b, scalar(ScaleFactor(inputFormat)), scalar(ShiftFactor(inputFormat)), InputEmulationPrefix);
      EmulationLayerEntries(i, scalar(ScaleFactor(outputFormat)), scalar(ShiftFactor(outputFormat)), OutputEmulationPrefix);
    }
  }

  /** The four latent formats that have a scale/shift pair, each listed once. */
  lemma LatentFormatsTable()
    ensures forall f :: f in LatentFormats <==> f == "sd" || f == "sdxl" || f == "sd3" || f == "f1"
    ensures forall i, j :: 0 <= i < j < |LatentFormats| ==> LatentFormats[i] != LatentFormats[j]
  {
  }

  /** Each reserved prefix ends with '.', and no key lies under two of them. */
  lemma ReservedNamespacesDisjoint(x: string)
    ensures forall i :: 0 <= i < |ReservedPrefixes| ==> EndsWith(ReservedPrefixes[i], ".")
    ensures forall i, j :: 0 <= i < j < |ReservedPrefixes| && StartsWith(x, ReservedPrefixes[i]) ==>
      !StartsWith(x, ReservedPrefixes[j])
  {
    forall i, j | 0 <= i < j < |ReservedPrefixes| && StartsWith(x, ReservedPrefixes[i])
      ensures !StartsWith(x, ReservedPrefixes[j])
    {
      // the five prefixes already differ at their sixth character
      assert EncoderPrefix[5] == 'e' && DecoderPrefix[5] == 'd' && XBridgePrefix[5] == 'x';
      assert InputEmulationPrefix[5] == 'u' && OutputEmulationPrefix[5] == 'm';
      assert x[5] == ReservedPrefixes[i][5] != ReservedPrefixes[j][5];
    }
  }

  /** A key of either half, or one of the injected keys, lies in a reserved namespace. */
  lemma ReservedKey(x: string)
    requires InHalves(x) || x == BlurKey || x == InScaleKey || x == InShiftKey || x == OutScaleKey || x == OutShiftKey
    ensures StartsWithAny(x, ReservedPrefixes)
  {
    if InHalves(x) {
      assert StartsWith(x, ReservedPrefixes[0]) || StartsWith(x, ReservedPrefixes[1]);
    } else if x == BlurKey {
      assert StartsWith(x, ReservedPrefixes[2]);
    } else if x == InScaleKey || x == InShiftKey {
      assert StartsWith(x, ReservedPrefixes[3]);
    } else {
      assert StartsWith(x, ReservedPrefixes[4]);
    }
  }

  /**
   * Every key of the transcoder is a key of one of the two halves, the blur key
   * when the sigma is truthy, or an emulation key when emulation is asked for;
   * so every key lies in one of the five reserved namespaces.
   */
  lemma AssembledNamespaces<T>(encoderFile: Dict<T>, encoderPrefix: string, decoderFile: Dict<T>, decoderPrefix: string,
                               inputFormat: string, outputFormat: string, blurSigma: Option<real>, emulation: bool,
                               scalar: Constant -> T, cast: Option<T -> T>)
    requires Valid(encoderFile) && Valid(decoderFile)
    ensures forall x :: x in Assembled(encoderFile, encoderPrefix, decoderFile, decoderPrefix,
                                       inputFormat, outputFormat, blurSigma, emulation, scalar, cast).vals ==>
      InHalves(x) || (x == BlurKey && Truthy(blurSigma)) ||
      (emulation && (x == InScaleKey || x == InShiftKey || x == OutScaleKey || x == OutShiftKey))
    ensures forall x :: x in Assembled(encoderFile, encoderPrefix, decoderFile, decoderPrefix,
                                       inputFormat, outputFormat, blurSigma, emulation, scalar, cast).vals ==>
      StartsWithAny(x, ReservedPrefixes)
  {
    var m := Merged(encoderFile, encoderPrefix, decoderFile, decoderPrefix);
    var r := Realigned(m);
    var w := WithEmulation(WithBridge(r, blurSigma, scalar), emulation, inputFormat, outputFormat, scalar);
    MergedHalves(encoderFile, encoderPrefix, decoderFile, decoderPrefix);
    RealignedHalves(m);
    InjectedEntries(r, blurSigma, emulation, inputFormat, outputFormat, scalar);
    ConvertedEntries(w, cast);
    forall x | x in w.vals ensures StartsWithAny(x, ReservedPrefixes) {
      ReservedKey(x);
    }
  }

  /** The blur bridge is present iff the sigma is truthy; the four emulation tensors iff emulation is asked for. */
  lemma AssembledInjected<T>(encoderFile: Dict<T>, encoderPrefix: string, decoderFile: Dict<T>, decoderPrefix: string,
                             inputFormat: string, outputFormat: string, blurSigma: Option<real>, emulation: bool,
                             scalar: Constant -> T, cast: Option<T -> T>)
    requires Valid(encoderFile) && Valid(decoderFile)
    ensures var a := Assembled(encoderFile, encoderPrefix, decoderFile, decoderPrefix,
                               inputFormat, outputFormat, blurSigma, emulation, scalar, cast);
      (BlurKey in a.vals <==> Truthy(blurSigma)) &&
      (Truthy(blurSigma) ==> a.vals[BlurKey] == CastValue(cast, scalar(BlurSigma(blurSigma.value)))) &&
      (InScaleKey in a.vals <==> emulation) && (InShiftKey in a.vals <==> emulation) &&
      (OutScaleKey in a.vals <==> emulation) && (OutShiftKey in a.vals <==> emulation) &&
      (emulation ==> a.vals[InScaleKey] == CastValue(cast, scalar(ScaleFactor(inputFormat))) &&
                     a.vals[InShiftKey] == CastValue(cast, scalar(ShiftFactor(inputFormat))) &&
                     a.vals[OutScaleKey] == CastValue(cast, scalar(ScaleFactor(outputFormat))) &&
                     a.vals[OutShiftKey] == CastValue(cast, scalar(ShiftFactor(outputFormat))))
  {
    var m := Merged(encoderFile, encoderPrefix, decoderFile, decoderPrefix);
    var r := Realigned(m);
    var w := WithEmulation(WithBridge(r, blurSigma, scalar), emulation, inputFormat, outputFormat, scalar);
    MergedHalves(encoderFile, encoderPrefix, decoderFile, decoderPrefix);
    RealignedHalves(m);
    InjectedKeysApart();
    InjectedEntries(r, blurSigma, emulation, inputFormat, outputFormat, scalar);
    ConvertedEntries(w, cast);
  }

  /** A decoder key is renamed onto "transd.0.weight" exactly when it is the prefix followed by "0.weight". */
  lemma RenamedToMisaligned(k: string, p: string)
    requires StartsWith(k, p)
    ensures Renamed(k, p, DecoderPrefix) == MisalignedKey <==> k == p + "0.weight"
  {
    var k0 := p + "0.weight";
    assert k0[..|p|] == p && k0[|p|..] == "0.weight";
    if Renamed(k, p, DecoderPrefix) == MisalignedKey {
      assert k[|p|..] == MisalignedKey[|DecoderPrefix|..];
      assert k == k[..|p|] + k[|p|..];
    }
  }

  /** Realignment happens iff the decoder file holds a layer-0 weight right under its prefix. */
  lemma RealignmentTrigger<T>(encoderFile: Dict<T>, encoderPrefix: string, decoderFile: Dict<T>, decoderPrefix: string)
    requires Valid(encoderFile) && Valid(decoderFile)
    ensures MisalignedKey in Merged(encoderFile, encoderPrefix, decoderFile, decoderPrefix).vals <==>
      NormalizePrefix(decoderPrefix) + "0.weight" in decoderFile.vals
  {
    var p := NormalizePrefix(decoderPrefix);
    var e := Loaded(encoderFile, encoderPrefix, EncoderPrefix);
    var d := Loaded(decoderFile, decoderPrefix, DecoderPrefix);
    MergeValues(e, d);
    assert NormalizePrefix(EncoderPrefix) == EncoderPrefix;
    assert NormalizePrefix(DecoderPrefix) == DecoderPrefix;
    LoadedUnder(encoderFile, encoderPrefix, EncoderPrefix);
    HalvesDisjoint(MisalignedKey);
    assert MisalignedKey !in e.vals;
    LoadedHas(decoderFile, decoderPrefix, DecoderPrefix);
    var k0 := p + "0.weight";
    RenamedToMisaligned(k0, p);
    if MisalignedKey in d.vals {
      var k :| k in decoderFile.keys && StartsWith(k, p) && MisalignedKey == Renamed(k, p, DecoderPrefix);
      RenamedToMisaligned(k, p);
    }
  }

  /** `transd.0.weight` is a layer key: layer "0", suffix ".weight". */
  lemma LayerZeroParts()
    ensures IsLayerKey(MisalignedKey, DecoderPrefix)
    ensures LayerSegment(MisalignedKey, DecoderPrefix) == "0" && DecimalValue("0") == 0
    ensures DotSuffix(MisalignedKey, DecoderPrefix) == ".weight"
  {
    LayerSplit(DecoderPrefix, "0", ".weight");
    assert MisalignedKey == DecoderPrefix + "0" + ".weight";
    assert "0"[..0] == [];
  }

  /** Shifting by one never produces layer 0. */
  lemma ShiftNeverLayerZero(k: string)
    ensures ShiftKey(k, DecoderPrefix, 1) != MisalignedKey
  {
    LayerZeroParts();
    if IsLayerKey(k, DecoderPrefix) {
      ShiftKeyStaysLayer(k, DecoderPrefix, 1);
    } else {
      ShiftKeyOther(k, DecoderPrefix, 1);
    }
  }

  /** Shifting by one moves the layer-0 weight to layer 1. */
  lemma ShiftLayerZero()
    ensures ShiftKey(MisalignedKey, DecoderPrefix, 1) == RealignedKey
  {
    LayerZeroParts();
    assert IntToString(1) == "1";
  }

  /**
   * Realignment leaves no layer-0 weight behind: every layer number goes up by
   * one, and the layer-0 weight moves to layer 1.
   */
  lemma RealignedDropsLayerZero<T>(m: Dict<T>)
    requires Valid(m)
    ensures MisalignedKey !in Realigned(m).vals
    ensures MisalignedKey in m.vals ==> RealignedKey in Realigned(m).vals
  {
    if MisalignedKey in m.vals {
      ShiftedHas(m, DecoderPrefix, 1, MisalignedKey);
      forall k | k in m.keys ensures ShiftKey(k, DecoderPrefix, 1) != MisalignedKey {
        ShiftNeverLayerZero(k);
      }
      ShiftLayerZero();
      ShiftedHas(m, DecoderPrefix, 1, RealignedKey);
    }
  }

  /**
   * The transcoder never holds `transd.0.weight`; it holds `transd.1.weight`
   * whenever the decoder file has a layer-0 weight, which is what triggers
   * realignment.
   */
  lemma AssembledLayerZero<T>(encoderFile: Dict<T>, encoderPrefix: string, decoderFile: Dict<T>, decoderPrefix: string,
                              inputFormat: string, outputFormat: string, blurSigma: Option<real>, emulation: bool,
                              scalar: Constant -> T, cast: Option<T -> T>)
    requires Valid(encoderFile) && Valid(decoderFile)
    ensures var a := Assembled(encoderFile, encoderPrefix, decoderFile, decoderPrefix,
                               inputFormat, outputFormat, blurSigma, emulation, scalar, cast);
      MisalignedKey !in a.vals &&
      (NormalizePrefix(decoderPrefix) + "0.weight" in decoderFile.vals ==> RealignedKey in a.vals)
  {
    var m := Merged(encoderFile, encoderPrefix, decoderFile, decoderPrefix);
    var r := Realigned(m);
    var w := WithEmulation(WithBridge(r, blurSigma, scalar), emulation, inputFormat, outputFormat, scalar);
    RealignedDropsLayerZero(m);
    RealignmentTrigger(encoderFile, encoderPrefix, decoderFile, decoderPrefix);
    InjectedEntries(r, blurSigma, emulation, inputFormat, outputFormat, scalar);
    InjectedKeysApart();
    assert InHalves(MisalignedKey) by {
      assert MisalignedKey[..|DecoderPrefix|] == DecoderPrefix;
    }
    assert InHalves(RealignedKey) by {
      assert RealignedKey[..|DecoderPrefix|] == DecoderPrefix;
    }
    ConvertedEntries(w, cast);
  }

  /** An entry of either half survives the injected stages and the conversion, cast. */
  lemma SurvivesInjection<T>(r: Dict<T>, x: string, blurSigma: Option<real>, emulation: bool,
                             inputFormat: string, outputFormat: string, scalar: Constant -> T, cast: Option<T -> T>)
    requires Valid(r) && x in r.vals && InHalves(x)
    ensures var a := Converted(WithEmulation(WithBridge(r, blurSigma, scalar), emulation, inputFormat, outputFormat, scalar), cast);
      x in a.vals && a.vals[x] == CastValue(cast, r.vals[x])
  {
    InjectedKeysApart();
    InjectedEntries(r, blurSigma, emulation, inputFormat, outputFormat, scalar);
    ConvertedEntries(WithEmulation(WithBridge(r, blurSigma, scalar), emulation, inputFormat, outputFormat, scalar), cast);
  }

  /** Every encoder tensor under the encoder prefix reaches the transcoder under "transe.", cast. */
  lemma AssembledEncoder<T>(encoderFile: Dict<T>, encoderPrefix: string, decoderFile: Dict<T>, decoderPrefix: string,
                            inputFormat: string, outputFormat: string, blurSigma: Option<real>, emulation: bool,
                            scalar: Constant -> T, cast: Option<T -> T>, k: string)
    requires Valid(encoderFile) && Valid(decoderFile)
    requires k in encoderFile.vals && StartsWith(k, NormalizePrefix(encoderPrefix))
    ensures var a := Assembled(encoderFile, encoderPrefix, decoderFile, decoderPrefix,
                               inputFormat, outputFormat, blurSigma, emulation, scalar, cast);
      var x := Renamed(k, NormalizePrefix(encoderPrefix), EncoderPrefix);
      x in a.vals && a.vals[x] == CastValue(cast, encoderFile.vals[k])
  {
    var x := Renamed(k, NormalizePrefix(encoderPrefix), EncoderPrefix);
    var m := Merged(encoderFile, encoderPrefix, decoderFile, decoderPrefix);
    assert NormalizePrefix(EncoderPrefix) == EncoderPrefix;
    LoadedValue(encoderFile, encoderPrefix, EncoderPrefix, k);
    MergedHalves(encoderFile, encoderPrefix, decoderFile, decoderPrefix);
    HalvesDisjoint(x);
    assert m.vals[x] == encoderFile.vals[k];
    if MisalignedKey in m.vals {
      ShiftedKeepsOthers(m, DecoderPrefix, 1, x);
    }
    SurvivesInjection(Realigned(m), x, blurSigma, emulation, inputFormat, outputFormat, scalar, cast);
  }

  /**
   * Every decoder tensor under the decoder prefix reaches the transcoder under
   * "transd.", moved one layer up when the decoder needed realignment; a
   * tensor that is not numbered keeps its name and its (cast) value.
   */
  lemma AssembledDecoder<T>(encoderFile: Dict<T>, encoderPrefix: string, decoderFile: Dict<T>, decoderPrefix: string,
                            inputFormat: string, outputFormat: string, blurSigma: Option<real>, emulation: bool,
                            scalar: Constant -> T, cast: Option<T -> T>, k: string)
    requires Valid(encoderFile) && Valid(decoderFile)
    requires k in decoderFile.vals && StartsWith(k, NormalizePrefix(decoderPrefix))
    ensures var a := Assembled(encoderFile, encoderPrefix, decoderFile, decoderPrefix,
                               inputFormat, outputFormat, blurSigma, emulation, scalar, cast);
      var x := Renamed(k, NormalizePrefix(decoderPrefix), DecoderPrefix);
      var realign := NormalizePrefix(decoderPrefix) + "0.weight" in decoderFile.vals;
      (realign ==> ShiftKey(x, DecoderPrefix, 1) in a.vals) &&
      (!realign || !IsLayerKey(x, DecoderPrefix) ==> x in a.vals && a.vals[x] == CastValue(cast, decoderFile.vals[k]))
  {
    var x := Renamed(k, NormalizePrefix(decoderPrefix), DecoderPrefix);
    var m := Merged(encoderFile, encoderPrefix, decoderFile, decoderPrefix);
    var r := Realigned(m);
    assert NormalizePrefix(DecoderPrefix) == DecoderPrefix;
    LoadedValue(decoderFile, decoderPrefix, DecoderPrefix, k);
    MergedHalves(encoderFile, encoderPrefix, decoderFile, decoderPrefix);
    RealignmentTrigger(encoderFile, encoderPrefix, decoderFile, decoderPrefix);
    assert x[..|DecoderPrefix|] == DecoderPrefix;
    assert m.vals[x] == decoderFile.vals[k];
    if MisalignedKey in m.vals {
      var y := ShiftKey(x, DecoderPrefix, 1);
      ShiftedHas(m, DecoderPrefix, 1, y);
      ShiftKeyKeepsPrefix(x, DecoderPrefix, 1);
      SurvivesInjection(r, y, blurSigma, emulation, inputFormat, outputFormat, scalar, cast);
      if !IsLayerKey(x, DecoderPrefix) {
        ShiftedKeepsOthers(m, DecoderPrefix, 1, x);
        SurvivesInjection(r, x, blurSigma, emulation, inputFormat, outputFormat, scalar, cast);
      }
    } else {
      SurvivesInjection(r, x, blurSigma, emulation, inputFormat, outputFormat, scalar, cast);
    }
  }

  /** A decoder file whose layer numbers have no leading zeros loads into keys whose numbers have none either. */
  lemma LoadedCanonical<T>(decoderFile: Dict<T>, decoderPrefix: string)
    requires Valid(decoderFile)
    requires forall i :: 0 <= i < |decoderFile.keys| && StartsWith(decoderFile.keys[i], NormalizePrefix(decoderPrefix)) ==>
      CanonicalLayer(decoderFile.keys[i], NormalizePrefix(decoderPrefix))
    ensures forall z :: z in Loaded(decoderFile, decoderPrefix, DecoderPrefix).vals ==> CanonicalLayer(z, DecoderPrefix)
  {
    var p := NormalizePrefix(decoderPrefix);
    assert NormalizePrefix(DecoderPrefix) == DecoderPrefix;
    LoadedHas(decoderFile, decoderPrefix, DecoderPrefix);
    forall z | z in Loaded(decoderFile, decoderPrefix, DecoderPrefix).vals ensures CanonicalLayer(z, DecoderPrefix) {
      var k2 :| k2 in decoderFile.keys && StartsWith(k2, p) && z == Renamed(k2, p, DecoderPrefix);
      var i2 :| 0 <= i2 < |decoderFile.keys| && decoderFile.keys[i2] == k2;
      RenamedLayer(k2, p, DecoderPrefix);
    }
  }

  /**
   * Under realignment no key other than the renamed decoder key `k` is shifted
   * onto the name `k` is shifted to, when the layer numbers of both have no
   * leading zeros.
   */
  lemma ShiftedApart(k: string, decoderPrefix: string, z: string)
    requires StartsWith(k, decoderPrefix) && CanonicalLayer(k, decoderPrefix)
    requires StartsWith(z, DecoderPrefix) ==> CanonicalLayer(z, DecoderPrefix)
    requires z != Renamed(k, decoderPrefix, DecoderPrefix)
    ensures ShiftKey(z, DecoderPrefix, 1) != ShiftKey(Renamed(k, decoderPrefix, DecoderPrefix), DecoderPrefix, 1)
  {
    var x := Renamed(k, decoderPrefix, DecoderPrefix);
    RenamedLayer(k, decoderPrefix, DecoderPrefix);
    if StartsWith(z, DecoderPrefix) {
      if ShiftKey(z, DecoderPrefix, 1) == ShiftKey(x, DecoderPrefix, 1) {
        ShiftKeyInjective(z, x, DecoderPrefix, 1);
      }
    } else {
      ShiftKeyKeepsPrefix(x, DecoderPrefix, 1);
    }
  }

  /** A decoder tensor under the decoder prefix is in the merged dict under `transd.`, unchanged. */
  lemma MergedDecoderValue<T>(encoderFile: Dict<T>, encoderPrefix: string, decoderFile: Dict<T>, decoderPrefix: string,
                              k: string)
    requires Valid(encoderFile) && Valid(decoderFile)
    requires k in decoderFile.vals && StartsWith(k, NormalizePrefix(decoderPrefix))
    ensures var m := Merged(encoderFile, encoderPrefix, decoderFile, decoderPrefix);
      var x := Renamed(k, NormalizePrefix(decoderPrefix), DecoderPrefix);
      x in m.vals && m.vals[x] == decoderFile.vals[k]
  {
    var x := Renamed(k, NormalizePrefix(decoderPrefix), DecoderPrefix);
    var e := Loaded(encoderFile, encoderPrefix, EncoderPrefix);
    var d := Loaded(decoderFile, decoderPrefix, DecoderPrefix);
    assert NormalizePrefix(DecoderPrefix) == DecoderPrefix;
    assert NormalizePrefix(EncoderPrefix) == EncoderPrefix;
    LoadedValue(decoderFile, decoderPrefix, DecoderPrefix, k);
    LoadedUnder(encoderFile, encoderPrefix, EncoderPrefix);
    MergeValues(e, d);
    assert x[..|DecoderPrefix|] == DecoderPrefix;
    HalvesDisjoint(x);
  }

  /**
   * No merged key other than the renamed decoder key `k` is shifted onto the
   * name `k` is shifted to, when the decoder's layer numbers have no leading zeros.
   */
  lemma NoOtherLandsOn<T>(encoderFile: Dict<T>, encoderPrefix: string, decoderFile: Dict<T>, decoderPrefix: string,
                          k: string, z: string)
    requires Valid(encoderFile) && Valid(decoderFile)
    requires forall i :: 0 <= i < |decoderFile.keys| && StartsWith(decoderFile.keys[i], NormalizePrefix(decoderPrefix)) ==>
      CanonicalLayer(decoderFile.keys[i], NormalizePrefix(decoderPrefix))
    requires k in decoderFile.vals && StartsWith(k, NormalizePrefix(decoderPrefix))
    ensures var x := Renamed(k, NormalizePrefix(decoderPrefix), DecoderPrefix);
      z in Merged(encoderFile, encoderPrefix, decoderFile, decoderPrefix).vals && z != x ==>
        ShiftKey(z, DecoderPrefix, 1) != ShiftKey(x, DecoderPrefix, 1)
  {
    var p := NormalizePrefix(decoderPrefix);
    var e := Loaded(encoderFile, encoderPrefix, EncoderPrefix);
    var d := Loaded(decoderFile, decoderPrefix, DecoderPrefix);
    if z in Merged(encoderFile, encoderPrefix, decoderFile, decoderPrefix).vals && z != Renamed(k, p, DecoderPrefix) {
      var ik :| 0 <= ik < |decoderFile.keys| && decoderFile.keys[ik] == k;
      assert CanonicalLayer(k, p);
      MergeValues(e, d);
      if StartsWith(z, DecoderPrefix) {
        assert NormalizePrefix(EncoderPrefix) == EncoderPrefix;
        LoadedUnder(encoderFile, encoderPrefix, EncoderPrefix);
        HalvesDisjoint(z);
        assert z !in e.vals;
        LoadedCanonical(decoderFile, decoderPrefix);
      }
      ShiftedApart(k, p, z);
    }
  }

  /**
   * With realignment, a numbered decoder tensor is found under its new number
   * in the realigned dict, when the decoder's layer numbers are written without
   * leading zeros (otherwise two layers can merge, see `Tensors.ShiftedCollision`).
   */
  lemma RealignedDecoderLayer<T>(encoderFile: Dict<T>, encoderPrefix: string, decoderFile: Dict<T>, decoderPrefix: string,
                                 k: string)
    requires Valid(encoderFile) && Valid(decoderFile)
    requires forall i :: 0 <= i < |decoderFile.keys| && StartsWith(decoderFile.keys[i], NormalizePrefix(decoderPrefix)) ==>
      CanonicalLayer(decoderFile.keys[i], NormalizePrefix(decoderPrefix))
    requires k in decoderFile.vals && StartsWith(k, NormalizePrefix(decoderPrefix))
    ensures var r := Realigned(Merged(encoderFile, encoderPrefix, decoderFile, decoderPrefix));
      var y := ShiftKey(Renamed(k, NormalizePrefix(decoderPrefix), DecoderPrefix), DecoderPrefix, 1);
      NormalizePrefix(decoderPrefix) + "0.weight" in decoderFile.vals ==>
        y in r.vals && r.vals[y] == decoderFile.vals[k]
  {
    if NormalizePrefix(decoderPrefix) + "0.weight" !in decoderFile.vals {
      return;
    }
    var p := NormalizePrefix(decoderPrefix);
    var x := Renamed(k, p, DecoderPrefix);
    var y := ShiftKey(x, DecoderPrefix, 1);
    var m := Merged(encoderFile, encoderPrefix, decoderFile, decoderPrefix);
    MergedDecoderValue(encoderFile, encoderPrefix, decoderFile, decoderPrefix, k);
    RealignmentTrigger(encoderFile, encoderPrefix, decoderFile, decoderPrefix);
    var i :| 0 <= i < |m.keys| && m.keys[i] == x;
    forall j | i < j < |m.keys| ensures ShiftKey(m.keys[j], DecoderPrefix, 1) != y {
      assert m.keys[j] in m.vals && m.keys[j] != x;
      NoOtherLandsOn(encoderFile, encoderPrefix, decoderFile, decoderPrefix, k, m.keys[j]);
    }
    ShiftedLaterWins(m, DecoderPrefix, 1, i);
  }

  /**
   * With realignment, a numbered decoder tensor keeps its (cast) value under
   * its new number in the transcoder, when the decoder's layer numbers are
   * written without leading zeros.
   */
  lemma AssembledDecoderLayer<T>(encoderFile: Dict<T>, encoderPrefix: string, decoderFile: Dict<T>, decoderPrefix: string,
                                 inputFormat: string, outputFormat: string, blurSigma: Option<real>, emulation: bool,
                                 scalar: Constant -> T, cast: Option<T -> T>, k: string)
    requires Valid(encoderFile) && Valid(decoderFile)
    requires forall i :: 0 <= i < |decoderFile.keys| && StartsWith(decoderFile.keys[i], NormalizePrefix(decoderPrefix)) ==>
      CanonicalLayer(decoderFile.keys[i], NormalizePrefix(decoderPrefix))
    requires k in decoderFile.vals && StartsWith(k, NormalizePrefix(decoderPrefix))
    ensures var a := Assembled(encoderFile, encoderPrefix, decoderFile, decoderPrefix,
                               inputFormat, outputFormat, blurSigma, emulation, scalar, cast);
      var y := ShiftKey(Renamed(k, NormalizePrefix(decoderPrefix), DecoderPrefix), DecoderPrefix, 1);
      NormalizePrefix(decoderPrefix) + "0.weight" in decoderFile.vals ==>
        y in a.vals && a.vals[y] == CastValue(cast, decoderFile.vals[k])
  {
    if NormalizePrefix(decoderPrefix) + "0.weight" in decoderFile.vals {
      var x := Renamed(k, NormalizePrefix(decoderPrefix), DecoderPrefix);
      var m := Merged(encoderFile, encoderPrefix, decoderFile, decoderPrefix);
      RealignedDecoderLayer(encoderFile, encoderPrefix, decoderFile, decoderPrefix, k);
      assert x[..|DecoderPrefix|] == DecoderPrefix;
      ShiftKeyKeepsPrefix(x, DecoderPrefix, 1);
      SurvivesInjection(Realigned(m), ShiftKey(x, DecoderPrefix, 1), blurSigma, emulation, inputFormat, outputFormat, scalar, cast);
    }
  }

  //------------------------------ the builder -------------------------------//

  /**
   * `build_tiny_transcoder`. The two format assertions are the error path
   * (`None`); otherwise the result is `Assembled`, so every property proved
   * above holds of it. `scalar` builds the one-element arrays of the injected
   * layers and `cast` is the optional dtype conversion.
   */
  method BuildTinyTranscoder<T>(encoderFile: Dict<T>, encoderPrefix: string, decoderFile: Dict<T>, decoderPrefix: string,
                                inputFormat: string, outputFormat: string, blurSigma: Option<real>, emulation: bool,
                                scalar: Constant -> T, cast: Option<T -> T>)
    returns (transcoder: Option<Dict<T>>)
    requires Valid(encoderFile) && Valid(decoderFile)
    ensures transcoder.None? <==> !(inputFormat in LatentFormats && outputFormat in LatentFormats)
    ensures transcoder.Some? ==> transcoder.value == Assembled(encoderFile, encoderPrefix, decoderFile, decoderPrefix,
                                                              inputFormat, outputFormat, blurSigma, emulation, scalar, cast)
    ensures transcoder.Some? ==> Valid(transcoder.value)
    ensures transcoder.Some? ==> forall x :: x in transcoder.value.vals ==> StartsWithAny(x, ReservedPrefixes)
    ensures transcoder.Some? ==> (BlurKey in transcoder.value.vals <==> Truthy(blurSigma))
    ensures transcoder.Some? ==> (InScaleKey in transcoder.value.vals <==> emulation)
    ensures transcoder.Some? ==> (OutScaleKey in transcoder.value.vals <==> emulation)
    ensures transcoder.Some? ==> (InShiftKey in transcoder.value.vals <==> emulation)
    ensures transcoder.Some? ==> (OutShiftKey in transcoder.value.vals <==> emulation)
    ensures transcoder.Some? ==> MisalignedKey !in transcoder.value.vals
    ensures transcoder.Some? && NormalizePrefix(decoderPrefix) + "0.weight" in decoderFile.vals ==>
      RealignedKey in transcoder.value.vals
  {
    if !(inputFormat in LatentFormats) || !(outputFormat in LatentFormats) {
      return None;
    }
    var encoderTensors := LoadTensors(encoderFile, encoderPrefix, EncoderPrefix);
    var decoderTensors := LoadTensors(decoderFile, decoderPrefix, DecoderPrefix);
    MergeValues(encoderTensors, decoderTensors);
    var merged := Merge(encoderTensors, decoderTensors);
    if MisalignedKey in merged.vals {
      merged := ShiftLayers(merged, DecoderPrefix, 1);
    }
    var stateDict := new StateDict(merged);
    if Truthy(blurSigma) {
      InsertXBridgeLayer(stateDict, scalar(BlurSigma(blurSigma.value)), XBridgePrefix);
    }
    if emulation {
      InsertEmulationLayer(stateDict, scalar(ScaleFactor(inputFormat)), scalar(ShiftFactor(inputFormat)), InputEmulationPrefix);
      InsertEmulationLayer(stateDict, scalar(ScaleFactor(outputFormat)), scalar(ShiftFactor(outputFormat)), OutputEmulationPrefix);
    }
    var result := stateDict.Value();
    if cast.Some? {
      result := CastTensors(result, cast.value);
    }
    AssembledNamespaces(encoderFile, encoderPrefix, decoderFile, decoderPrefix,
                        inputFormat, outputFormat, blurSigma, emulation, scalar, cast);
    AssembledInjected(encoderFile, encoderPrefix, decoderFile, decoderPrefix,
                      inputFormat, outputFormat, blurSigma, emulation, scalar, cast);
    AssembledLayerZero(encoderFile, encoderPrefix, decoderFile, decoderPrefix,
                       inputFormat, outputFormat, blurSigma, emulation, scalar, cast);
    ConvertedEntries(WithEmulation(WithBridge(Realigned(Merged(encoderFile, encoderPrefix, decoderFile, decoderPrefix)),
                                              blurSigma, scalar), emulation, inputFormat, outputFormat, scalar), cast);
    return Some(result);
  }
}

=== FILE: wrappers.dfy ===
/** Optional values, used where the source returns `None`. */
module Wrappers {
  datatype Option<+T> = None | Some(value: T)
}
